=== FILE: README.md ===
# Voucher ledger and session core, modelled in Dafny

The system issues point vouchers to homeless beneficiaries. NGO staff register beneficiaries and give each one a QR card. Partner stores scan the card and debit points for goods and services. Staff sign in with cookie-held JSON Web Tokens. This project models the core of that system as pure Dafny functions over immutable data and proves properties of them:

- **Ledger.** The debit handler of the Express router and its serverless twin, with the log query. It is a state machine over (beneficiary balances, transaction log). Requests are served one after another, each as one atomic step.
- **Sessions.** The login, logout, refresh, `/me` and `/verify` ladders, in both their Express form and their serverless form. These are built on the guards `authenticateToken`, `authorizeRoles` and `optionalAuth`.
  - Tokens are abstract: claims, the signing key, and the issue and expiry times. Verification answers valid, expired or invalid, with expiry as in section 4.1.4 of RFC 7519.
  - Cookies are Set-Cookie effects applied to a browser cookie store. A Max-Age of zero or less, or an expiry in the past, deletes the cookie, as in sections 5.2.1 and 5.2.2 of RFC 6265. A timed view of the store drops each received cookie once its Max-Age has passed, as in section 5.3 of RFC 6265.
- **Repository.** The in-memory user, beneficiary and store directory, with its lookups and the balance update.
- **Routes.** The beneficiary and store routes.
- **Forms.** The sign-in, beneficiary and product form validators, their submit gates and their per-field edits.
- **Dashboards.** The list operations of the NGO and store dashboards.

Each handler maps (request, cookies, directory, state, clock) to (response, new state). The response records the status, the `success` flag, the message, the body, the `expired` flag and the Set-Cookie effects. The clock, the environment (`NODE_ENV` and the `JWT_*` variables) and the bcrypt password check are parameters.

Modules, one concept each:

| file | module | what |
|---|---|---|
| common.dfy | Common | `Option`, JS truthiness of strings, first-match search, filter, map-where |
| text.dfy | Text | `trim` and the `\s` class, ASCII `toLowerCase`, `includes`, decimal digits |
| roles.dfy | UserRoles | `USER_ROLES` and `ROLE_NAMES` |
| jwt_config.dfy | JwtConfig | the two `jwtConfig` files |
| tokens.dfy | Tokens | timespan strings, `jwt.sign` and `jwt.verify` |
| cookies.dfy | Cookies, Http | Set-Cookie effects, the cookie store, the response envelope |
| users.dfy | Users | server/models/users.js |
| auth_guard.dfy | AuthGuard | lib/middleware/auth.js |
| sessions.dfy | Sessions | the login and refresh decision ladders shared by both implementations |
| auth_routes.dfy | AuthRoutes | server/routes/auth.js |
| api_auth.dfy | ApiAuth | api/auth/login.js, logout.js, refresh.js, me.js |
| ledger.dfy | Ledger | server/routes/transaction.js and api/transaction.js |
| beneficiary_routes.dfy | BeneficiaryRoutes | server/routes/homeless.js |
| store_routes.dfy | StoreRoutes | server/routes/store.js |
| form_state.dfy | FormState | the error map and the `handleChange` step all three forms share |
| login_form.dfy | LoginForm | src/pages/Login.jsx |
| homeless_form.dfy | HomelessForm | src/components/Forms/HomelessForm.jsx |
| product_form.dfy | ProductForm | src/components/Forms/ProductForm.jsx |
| ngo_dashboard.dfy | NgoDashboard | src/pages/NGOAdmin/Dashboard.jsx |
| store_dashboard.dfy | StoreDashboard | src/pages/Store/Dashboard.jsx |

Where the design description and the code differ, the model follows the code.

- **Role mismatch at login.** The design says a failed login never reveals which check failed. The code answers a role mismatch with its own message '角色不符', and checks the role before the password (`Sessions.RoleCheckedBeforePassword`, `Sessions.UnknownUserLooksLikeWrongPassword`).
- **Serverless lifetimes.** The serverless configuration's fallback lifetimes are placeholders such as '@JWT_ACCESS_EXPIRY', which are not timespans. With no environment set, no serverless login can succeed (`ApiAuth.PlaceholderLifetimesBlockLogin`).
- **Which middleware file.** The Express routes import `server/middleware/auth.js`, which is not part of this model. Their guard is modelled as the guard of lib/middleware/auth.js, keyed with the server configuration's secret.
- **Which repository file.** The serverless handlers import lib/models/users.js, which is not part of this model. It is taken to behave as server/models/users.js.

## Model

| member | source | states |
|---|---|---|
| Ledger.Debit | server/routes/transaction.js:11-65 | The rejection ladder in order, with no state change on any rejection: 400 for a missing QR code or an amount that is missing, zero or negative; 404 for an unknown QR code; 400 '餘額不足' when the balance is below the amount. Success happens exactly when all checks pass. It appends one 'completed' record carrying the request's fields, stores `balance - amount` for the payer, and returns the record with that new balance, which is non-negative. |
| Ledger.WholeBalanceAccepted | server/routes/transaction.js:34-42 | A debit of exactly the whole balance is accepted and leaves a balance of 0. |
| Ledger.DebitChargesPayer | server/routes/transaction.js:24-43 | With unique beneficiary ids, an accepted debit changes only the first beneficiary with the QR code, to `old - amount`, and answers that same value. |
| Ledger.DebitKeepsWellFormed | server/routes/transaction.js:34-43 | No debit, accepted or rejected, makes a balance negative or breaks id uniqueness. |
| Ledger.TotalBalancePointUpdate | server/models/users.js:129-136 | A point update of one balance changes the total of all balances by exactly the difference. |
| Ledger.LoggedAmountAppend | server/routes/transaction.js:56 | Appending a record adds its amount to the logged total. |
| Ledger.UpdateFoundTotal | server/routes/transaction.js:24-43 | Updating the balance of the beneficiary found by QR code changes the total by exactly the difference. |
| Ledger.ChargeConserves | server/routes/transaction.js:42-56 | Moving an amount from the payer's balance into a new log record keeps balances plus logged amounts unchanged. |
| Ledger.DebitConserves | server/routes/transaction.js:11-65 | Every debit conserves points: what leaves the balances is exactly what enters the log. |
| Ledger.SequentialIdsDistinct | server/routes/transaction.js:47 | Ids numbered 1..n are pairwise distinct. |
| Ledger.ServerDebit | server/routes/transaction.js:46-56 | The Express handler numbers the new record `length + 1`, so the log keeps ids 1..n, and the log only grows. |
| Ledger.ServeAllKeepsInvariant | server/routes/transaction.js:8-65 | Over any sequence of debits, the invariant holds: balances stay non-negative, ids stay unique and log ids stay 1..n. The old log is a prefix of the new one, and points are conserved. |
| Ledger.SeedLedgerInvariant | server/models/users.js:53-70 | The seed beneficiaries with an empty log satisfy the ledger invariant. |
| Ledger.LogQuery | server/routes/transaction.js:78-86 | With no `qrCode` the whole log is returned. Otherwise a record is returned exactly when it is in the log and its beneficiary or store QR code equals the query. |
| Ledger.QueryAfterAppend | server/routes/transaction.js:80-86 | The query keeps log order: after an append, the answer is the old answer followed by the new record when it matches. |
| Ledger.ServerListTransactions | server/routes/transaction.js:76-91 | Listing succeeds exactly when `authenticateToken` passes, and answers the query; otherwise it answers the guard's refusal. |
| Ledger.ApiTransaction | api/transaction.js:7-93 | POST runs the debit ladder with `Date.now()` as the record id. GET answers the query without any guard and changes nothing. Any other method gets 405 and changes nothing. |
| Ledger.ApiDebitMatchesServer | api/transaction.js:8-63 | The serverless debit matches the Express one in status, message, success, balances and log length. Only the new record's id differs. |
| Ledger.ApiListingMatchesServer | api/transaction.js:71-86 | The unguarded serverless listing answers what the guarded Express listing answers to a signed-in caller. |
| Users.SeedUsernamesDistinct | server/models/users.js:4-50 | Seeded usernames are pairwise distinct. |
| Users.SeedIdsDistinct | server/models/users.js:4-50 | Seeded account ids are pairwise distinct. |
| Users.SeedBeneficiariesWellFormed | server/models/users.js:53-70 | Seeded beneficiary balances are non-negative, and their ids and QR codes are pairwise distinct. |
| Users.SeedStoresDistinct | server/models/users.js:73-98 | Seeded store QR codes are pairwise distinct. |
| Users.FindByUsername | server/models/users.js:101-103 | `findByUsername` answers nothing exactly when no account has the name; otherwise it answers the first account with it. |
| Users.FindById | server/models/users.js:105-107 | `findById` answers nothing exactly when no account has the id; otherwise it answers the first account with it. |
| Users.FindByUsernameUnique | server/models/users.js:101-103 | With distinct usernames, the lookup answers the one account carrying the name. |
| Users.FindByIdUnique | server/models/users.js:105-107 | With distinct ids, the lookup answers the one account carrying the id. |
| Users.UserInfoDropsOnlyPassword | server/models/users.js:114-117 | `getUserInfo` drops the password and nothing else: putting the password back restores the account, and two accounts get the same info exactly when they differ at most in their password. |
| Users.FindBeneficiaryByQrCode | server/models/users.js:121-123 | The beneficiary lookup answers nothing exactly when no QR code matches; otherwise it answers the first match. |
| Users.FindBeneficiaryAt | server/models/users.js:121-123 | The lookup answers the record at the first index carrying the code. |
| Users.FindStoreByQrCode | server/models/users.js:144-146 | The store lookup answers nothing exactly when no QR code matches; otherwise it answers the first match. |
| Users.UpdateBalance | server/models/users.js:129-136 | With an existing id, only the first record with it gets the new balance, and the call answers true. With an unknown id it answers false and changes nothing. The length never changes. |
| Users.UpdateBalanceUnique | server/models/users.js:129-136 | With unique ids, the update touches exactly the record carrying the id. |
| Users.UpdateFoundBeneficiary | server/models/users.js:121-136 | With unique ids, updating by the id of the record found by QR code updates that very record. |
| Users.UpdateBalancePreservesWellFormed | server/models/users.js:129-136 | An update to a non-negative balance keeps balances non-negative and ids unique. |
| BeneficiaryRoutes.Lookup | server/routes/homeless.js:8-23 | The unguarded lookup succeeds exactly when some record has the QR code, and answers the first record with that code, as `findByQrCode` does; otherwise 404 '找不到該街友資訊'. |
| BeneficiaryRoutes.List | server/routes/homeless.js:34-41 | The list succeeds exactly when the access cookie resolves to an account whose role is ngo_admin or ngo_partner. Otherwise it answers the guards' refusal. |
| BeneficiaryRoutes.PatchBalance | server/routes/homeless.js:52-77 | The ladder for PATCH `/:id/balance`: the authentication refusal; then 400 for a missing or negative `newBalance`; then 404 for an unknown id. No rejection changes anything. On success the balance is set and echoed with the id. |
| BeneficiaryRoutes.PatchKeepsWellFormed | server/routes/homeless.js:57-64 | A balance correction never makes a balance negative or breaks id uniqueness. |
| BeneficiaryRoutes.PatchThenLookup | server/routes/homeless.js:8-77 | After a correction, scanning the beneficiary's card shows the new balance. |
| BeneficiaryRoutes.PatchIgnoresRole | server/routes/homeless.js:52 | Any signed-in account may correct a balance, whatever its role. |
| StoreRoutes.Lookup | server/routes/store.js:8-23 | The unguarded store lookup succeeds exactly when some store has the QR code, and answers the first store with that code in `data`; otherwise 404 '找不到該店家資訊'. |
| StoreRoutes.LookupFindsOwner | server/routes/store.js:8-23 | With distinct store QR codes, scanning a store's code answers that very store. |
| StoreRoutes.List | server/routes/store.js:34-41 | The store list succeeds exactly for a signed-in ngo_admin or ngo_partner. |
| StoreRoutes.ListRefusesNonStaff | server/routes/store.js:34 | A signed-in store account or beneficiary account is refused the list with 403 '權限不足'. |
| StoreRoutes.SeedStoresFound | server/models/users.js:73-98 | Every seeded store is found by its QR code. |
| AuthGuard.AuthenticateToken | lib/middleware/auth.js:6-42 | `next` is called exactly when the access cookie resolves to an existing account, and then `req.user` is that account's info. No cookie gives 401. A token of an absent user gives 401 without the `expired` flag. An expired token gives 401 with `expired`. Any other verification failure gives 403. |
| AuthGuard.AuthorizeRoles | lib/middleware/auth.js:45-55 | `next` is called exactly when a user is attached and its role is listed; otherwise 403 '權限不足'. |
| AuthGuard.OptionalAuth | lib/middleware/auth.js:58-75 | The guard always calls `next`. It attaches a user exactly when the cookie resolves to an account, and attaches null otherwise. |
| AuthGuard.OptionalAgreesWithStrict | lib/middleware/auth.js:6-75 | Where the strict guard passes, the optional one attaches the same user. Where the strict guard refuses, the optional one attaches nobody. |
| AuthGuard.RequireRoles | server/routes/homeless.js:34 | `authenticateToken` followed by `authorizeRoles`: it passes exactly when the cookie resolves to an account with a listed role. The first guard's refusal comes first. |
| AuthGuard.HaltResponse | lib/middleware/auth.js:10-40 | A halting guard answers its status, its message and its `expired` flag, with no body and no cookies. |
| Sessions.DecideLogin | server/routes/auth.js:12-48 | The login ladder in order: a missing field; an unknown user; a role mismatch; a wrong password. Each verdict holds exactly under its condition. An accepted account is the one `findByUsername` found, the first with that username, and it carries the role asked for. |
| Sessions.RoleCheckedBeforePassword | server/routes/auth.js:33-48 | A role mismatch is reported whatever the password and the password checker. |
| Sessions.IssueTokens | server/routes/auth.js:51-61 | The access token carries `{userId, role}` signed with `secret`. The refresh token carries `{userId}` signed with `refreshSecret`. Each expires after its configured lifetime, and signing fails exactly when a lifetime is not a timespan. |
| Sessions.DecideRefresh | server/routes/auth.js:102-152 | The refresh ladder, each verdict exactly under its condition: no cookie; an expired token; any other invalid token; a valid token whose user is gone; a present user but an access lifetime `jwt.sign` rejects; otherwise a new access token for the user's current account, expiring after the access lifetime. |
| Sessions.LoginRejection | server/routes/auth.js:15-48 | A rejected login answers 400 for a missing field and 401 otherwise, with no body and no cookies. Only a role mismatch says '角色不符'. |
| Sessions.UnknownUserLooksLikeWrongPassword | server/routes/auth.js:25-48 | An unknown username and a wrong password get the identical answer, which differs from the role-mismatch answer. |
| AuthRoutes.Login | server/routes/auth.js:10-86 | Status 400 exactly for a missing field, 401 exactly for an unknown user, role mismatch or wrong password, and 500 exactly when signing fails. On success the access cookie lasts 15 minutes and the refresh cookie gets `cookieOptions`. The body is the account without its password. A failure sets no cookie. |
| AuthRoutes.LoginCookieAttributes | server/routes/auth.js:64-69 | With the server configuration, the access cookie has Max-Age 900 s and the refresh cookie 604800 s. Both are HttpOnly, SameSite=Lax and Path=/, and Secure exactly in production. |
| AuthRoutes.Logout | server/routes/auth.js:89-97 | Logout always succeeds and deletes both cookies. |
| AuthRoutes.Refresh | server/routes/auth.js:100-154 | Success exactly when renewed, setting only a new 15-minute access cookie. An expired token clears both cookies with 401. No cookie or a vanished user gives 401 without cookies. 403 is answered exactly for other failures, with no cookie changes. |
| AuthRoutes.Me | server/routes/auth.js:157-162 | `/me` answers the guard's user, or the guard's refusal. |
| AuthRoutes.VerifySession | server/routes/auth.js:165-171 | `/verify` answers as `/me`, with 'Token 有效'. |
| AuthRoutes.ApplyPair | server/routes/auth.js:64-69 | Two non-deleting cookies for different names land in the cookie store in order. |
| AuthRoutes.LoginOpensSession | server/routes/auth.js:51-69 | With the login's cookies held by the browser at a later time: while the 15-minute access cookie is held, `authenticateToken` lets the same account through until the access token expires, and answers 401 with `expired` after. Once the cookie has lapsed, the guard answers 401 for a missing token. |
| AuthRoutes.LoginOpensRefreshWindow | server/routes/auth.js:100-147 | With the login's cookies held at a later time: while the refresh cookie (`cookieOptions.maxAge`) is held, refresh renews for the same account until the refresh token expires, and answers "expired" after. Once the cookie has lapsed, refresh sees no token. |
| AuthRoutes.ApplyPairAt | server/routes/auth.js:64-69 | The two login cookies, with different names, are each kept or lapsed on their own. |
| AuthRoutes.RefreshUsesCurrentRole | server/routes/auth.js:112-133 | Refresh reads the account afresh: the new access token carries the user's current role. |
| AuthRoutes.LogoutEndsSession | server/routes/auth.js:89-97 | After logout the guard sees no token and refresh answers 401. |
| AuthRoutes.KeysSeparateTokenKinds | server/config/jwt.js:6-7 | With distinct keys, a refresh token offered as an access token is refused with 403, and the other way round. |
| ApiAuth.Login | api/auth/login.js:5-87 | A non-POST request gets 405. On POST: 400 exactly for a missing field; 401 exactly for an unknown user, a role mismatch or a wrong password, with '角色不符' exactly for the mismatch; 500 exactly when an accepted login cannot be signed. Success sets `accessToken` with Max-Age=900 and `refreshToken` with Max-Age=604800, both HttpOnly, Path=/ and SameSite=Lax, with Secure exactly in production. The body is the account without its password. |
| ApiAuth.LoginMatchesExpress | api/auth/login.js:14-79 | On POST, with the Express cookie options, the serverless login answers exactly as the Express route. |
| ApiAuth.LoginStatusMatchesExpress | api/auth/login.js:14-79 | On POST, whatever the cookie options, the serverless login gives the Express route's status, outcome, message and body; only the cookie headers can differ. |
| ApiAuth.PlaceholderLifetimesBlockLogin | lib/config/jwt.js:8-9 | With no environment set, the placeholder lifetime is not a timespan, so no serverless login succeeds. An accepted login answers 500. |
| ApiAuth.Logout | api/auth/logout.js:1-19 | A non-POST request gets 405 and touches no cookie. POST always succeeds and sends both clearing headers with Max-Age=0, HttpOnly, Path=/ and SameSite=Lax, never Secure. |
| ApiAuth.LogoutIdempotent | api/auth/logout.js:10-18 | After logout neither cookie remains, and logging out again leaves the same store. A non-POST request leaves the store unchanged. |
| ApiAuth.Refresh | api/auth/refresh.js:6-69 | A non-POST request gets 405. A missing cookie or a vanished user gives 401. Success sets only `accessToken` with Max-Age=900. An expired token gets both cookies set to Max-Age=0 with 401. Other failures get 403 with no Set-Cookie. |
| ApiAuth.RefreshMatchesExpress | api/auth/refresh.js:14-67 | On POST the serverless refresh answers as the Express route in status, message and body, and deletes the same cookies. |
| ApiAuth.Me | api/auth/me.js:6-52 | A non-GET request gets 405. Otherwise it succeeds exactly when the guard passes, answering the freshly looked-up account's info. `expired` is set exactly for an expired token. |
| ApiAuth.MeMatchesExpress | api/auth/me.js:14-51 | On GET the serverless `/me` answers exactly as the Express `/me`. |
| Tokens.UnitOf | server/config/jwt.js:8-9 | The unit letters s, m, h and d are the only ones a timespan may end with. |
| Tokens.DurationSeconds | server/config/jwt.js:8-9 | A lifetime parses only as one or more digits followed by a unit letter. |
| Tokens.DurationRoundTrip | server/config/jwt.js:8-9 | Writing a count and a unit and parsing it back gives the count in seconds. |
| Tokens.DefaultLifetimes | server/config/jwt.js:8-9 | '15m' is 900 seconds and '7d' is 604800 seconds, matching the cookie lifetimes. |
| Tokens.Sign | server/routes/auth.js:51-61 | Signing succeeds exactly for a timespan lifetime. The token then carries the claims and the key, and expires after the lifetime. |
| Tokens.Verify | lib/middleware/auth.js:16-41 | Verification passes only a token signed with the same key, answering its claims. A garbled value or a different key is invalid, checked before expiry. |
| Tokens.SignThenVerify | lib/middleware/auth.js:17 | A freshly signed token verifies with its key to its claims until it expires, and is expired after. |
| Tokens.KeysIsolate | lib/middleware/auth.js:17 | A token signed with one key never verifies with another. |
| Tokens.ExpiryIsFinal | lib/middleware/auth.js:30-36 | Once expired, a token stays expired. |
| Cookies.Read | lib/middleware/auth.js:7-9 | An absent cookie and an empty one both read as "no token". |
| Cookies.ExpressCookie | server/routes/auth.js:64-69 | `res.cookie` with options gives a header with the options' attributes and Max-Age in seconds. |
| Cookies.ExpressClear | server/routes/auth.js:90-91 | `res.clearCookie` gives a deleting header with no HttpOnly, Secure or SameSite. |
| Cookies.HeaderCookie | api/auth/login.js:67-70 | The literal header is HttpOnly, Path=/ and SameSite=Lax with the given Max-Age, and Secure exactly in production. |
| Cookies.HeaderClear | api/auth/logout.js:10-13 | The literal clearing header is empty, HttpOnly, Path=/, SameSite=Lax and Max-Age=0, never Secure, and deletes the cookie. |
| Cookies.ApplyDeletesLast | api/auth/logout.js:10-13 | Headers ending with a deleting one for a name leave no cookie of that name. |
| Cookies.ApplyNameFrame | api/auth/refresh.js:44-46 | Headers that never name a cookie leave it as it was. When the last header names it, that header alone decides it. |
| Cookies.ApplyAtReceipt | server/routes/auth.js:64-69 | At the moment of receipt, the timed cookie store (each cookie lapsing after its Max-Age) is the store the headers leave. |
| Cookies.LapseIsFinal | server/routes/auth.js:64-69 | A cookie that has lapsed stays lapsed. |
| JwtConfig.OrDefault | server/config/jwt.js:6-9 | `process.env.X \|\| fallback`: an unset or empty variable gives the fallback. |
| JwtConfig.ServerConfig | server/config/jwt.js:5-16 | The secrets are non-empty, and the defaults differ. The default lifetimes are '15m' and '7d'. The cookie is httpOnly and sameSite 'lax', Secure exactly in production, with maxAge 604800000 ms. |
| JwtConfig.LibConfig | lib/config/jwt.js:5-16 | The same cookie options, and distinct non-empty placeholder secrets. |
| JwtConfig.ConfigsAgreeWhenEnvSet | lib/config/jwt.js:5-16 | With every variable set, both configuration files give the same configuration. |
| UserRoles.ParseRole | src/constants/userRoles.js:1-9 | Parsing answers the role with that wire string, or nothing when no role has it. |
| UserRoles.AllRolesComplete | src/constants/userRoles.js:1-9 | There are exactly seven roles, each listed once. |
| UserRoles.RoleValueInjective | src/constants/userRoles.js:2-8 | Role wire strings are pairwise distinct. |
| UserRoles.ParseRoleValue | src/constants/userRoles.js:2-8 | A role's wire string parses back to the role. |
| UserRoles.DisplayNamesDistinct | src/constants/userRoles.js:11-19 | Every role has a non-empty display name, and no two roles share one. |
| FormState.NoErrorsIffNoKey | src/pages/Login.jsx:30-31 | The form is valid exactly when the error map has no key. |
| FormState.ClearError | src/pages/Login.jsx:57-63 | Clearing keeps every key, blanks the typed field's message and leaves the others. |
| FormState.ClearErrorHides | src/pages/Login.jsx:57-63 | After clearing, the field shows no message, and clearing twice is clearing once. |
| FormState.Change | src/pages/Login.jsx:50-64 | `handleChange`, shared by the three forms: the fields become the edited ones, every error key is kept, and only the typed field's message is blanked. |
| LoginForm.Validate | src/pages/Login.jsx:13-32 | A blank trimmed username, a password shorter than 6 UTF-16 code units (`length`) and an empty role each record an error. An empty password is 'required', and a short non-empty one is 'at least 6'. |
| LoginForm.ValidIff | src/pages/Login.jsx:13-32 | The form is valid exactly when the username is not blank, the password has at least 6 UTF-16 code units and a role is chosen. |
| LoginForm.AstralPasswordLength | src/pages/Login.jsx:22 | Three characters beyond U+FFFF are six code units and pass the length check; three ASCII letters do not. |
| LoginForm.PasswordMessagesExclusive | src/pages/Login.jsx:20-24 | The two password messages never co-occur: 'required' appears exactly for an empty password. |
| LoginForm.Set | src/pages/Login.jsx:52-55 | Only the named field changes. |
| LoginForm.Submit | src/pages/Login.jsx:34-48 | `onLogin` receives the fields exactly when the fresh validation has no errors. |
| LoginForm.QuickLogin | src/pages/Login.jsx:66-72 | A shortcut fills in the role's wire string, the password 'demo123' and the username. |
| LoginForm.QuickLoginValid | src/pages/Login.jsx:66-72 | Any shortcut with a non-blank username passes validation. |
| LoginForm.QuickLoginButtonsValid | src/pages/Login.jsx:185-209 | The buttons' usernames 'demo' and '張小明' pass validation with any role. |
| LoginForm.ValidFormIsComplete | src/pages/Login.jsx:34-48 | A valid form never draws the server's 400 for a missing field. |
| HomelessForm.Set | src/components/Forms/HomelessForm.jsx:81-86 | Only the named field changes. |
| HomelessForm.Load | src/components/Forms/HomelessForm.jsx:16-40 | The form opens with the person's fields, 'active' for a missing status, or blank fields for a new person. |
| HomelessForm.StripSeparators | src/components/Forms/HomelessForm.jsx:55 | Removing '-' and white space never lengthens the phone number. |
| HomelessForm.StripRemovesOnlySeparators | src/components/Forms/HomelessForm.jsx:55 | No separator survives, and a number without separators is left as it is. |
| HomelessForm.StripConcat | src/components/Forms/HomelessForm.jsx:55 | Stripping distributes over concatenation. |
| HomelessForm.SeparatorsIgnored | src/components/Forms/HomelessForm.jsx:55 | A separator anywhere in the number does not change the stripped number, and stripping twice is stripping once. |
| HomelessForm.IdPatternNotBlank | src/components/Forms/HomelessForm.jsx:49-53 | An ID in the national-ID format is never blank, so the two ID errors are mutually exclusive. |
| HomelessForm.IdMessage | src/components/Forms/HomelessForm.jsx:49-53 | The ID check records nothing exactly for the format `^[A-Z][12][0-9]{8}$`. It records 'required' for a blank ID and 'malformed' otherwise. |
| HomelessForm.Validate | src/components/Forms/HomelessForm.jsx:42-61 | A blank trimmed name gives the name error. The ID gives an error exactly outside the format. The phone gives an error exactly when it is non-empty and, once stripped, is not '09' and 8 digits. No other field has an error. |
| HomelessForm.ValidIff | src/components/Forms/HomelessForm.jsx:42-61 | The form is valid exactly when the name is not blank, the ID has the format, and the phone is empty or a stripped mobile number. |
| HomelessForm.PaddedIdRejected | src/components/Forms/HomelessForm.jsx:49-53 | The ID is checked untrimmed: a leading space passes the 'required' check but fails the format check. |
| HomelessForm.DashedDigitsStrip | src/components/Forms/HomelessForm.jsx:55 | Digit groups joined by dashes strip to the groups run together. |
| HomelessForm.DashedMobileAccepted | src/components/Forms/HomelessForm.jsx:55-57 | A number written `09xx-xxx-xxx` is accepted. |
| HomelessForm.SeedPhoneAccepted | server/models/users.js:60 | The seeded phone '0912-345-678' is accepted. |
| HomelessForm.SeedOtherPhoneAccepted | server/models/users.js:68 | The seeded phone '0923-456-789' is accepted. |
| HomelessForm.SeedIdsAccepted | server/models/users.js:55-63 | The seeded ID numbers 'A123456789' and 'B234567890' have the national-ID format. |
| HomelessForm.DashboardSeedIdRejected | src/pages/NGOAdmin/Dashboard.jsx:72 | The dashboard's 'B987654321' fails the format, so saving that person unedited reports the ID as malformed. |
| HomelessForm.FreshQrCodesDistinct | src/components/Forms/HomelessForm.jsx:73 | `QR_` codes made at different clock readings differ. |
| HomelessForm.Record | src/components/Forms/HomelessForm.jsx:70-76 | The saved record has the form's fields. Editing keeps the person's truthy id, QR code and creation time, and keeps the balance. A new person gets the clock as id, a fresh `QR_` code, balance 0 and the current time. |
| HomelessForm.Submit | src/components/Forms/HomelessForm.jsx:63-79 | `onSave` receives the record exactly when the fresh validation has no errors. |
| HomelessForm.ResaveIsIdentity | src/components/Forms/HomelessForm.jsx:16-76 | Opening a person with an id, QR code, creation time and status, and saving unchanged, gives the person back. |
| ProductForm.Load | src/components/Forms/ProductForm.jsx:15-35 | The form opens with the product's fields, an empty points box for 0 points and 'active' for a missing status, or blank fields for a new product. |
| ProductForm.Validate | src/components/Forms/ProductForm.jsx:37-54 | A blank trimmed name, empty or non-positive points, and an empty category each record their error, and nothing else does. |
| ProductForm.ValidIff | src/components/Forms/ProductForm.jsx:37-54 | The form is valid exactly when the name is not blank, the points are positive and a category is chosen. |
| ProductForm.ChangeText | src/components/Forms/ProductForm.jsx:71-83 | Editing a text field changes only that field and clears only its error. |
| ProductForm.ChangePoints | src/components/Forms/ProductForm.jsx:71-83 | Editing the points changes only the points and clears only their error. |
| ProductForm.Record | src/components/Forms/ProductForm.jsx:63-68 | The saved product has positive integer points, a non-blank name and a category. Editing keeps the truthy id and creation time. A new product gets the clock and the current time. |
| ProductForm.Submit | src/components/Forms/ProductForm.jsx:56-69 | `onSave` receives the record exactly when the fresh validation has no errors. |
| ProductForm.ResaveIsIdentity | src/components/Forms/ProductForm.jsx:15-68 | Opening an acceptable product and saving unchanged gives the product back. |
| ProductForm.ZeroPointsBlockResave | src/components/Forms/ProductForm.jsx:19 | A product stored with 0 points opens with an empty box and cannot be saved as it is. |
| NgoDashboard.Search | src/pages/NGOAdmin/Dashboard.jsx:85-88 | A person is kept exactly when the lowered term occurs in the lowered name or ID number. |
| NgoDashboard.SearchAppend | src/pages/NGOAdmin/Dashboard.jsx:85-88 | The search keeps list order. |
| NgoDashboard.SearchEmptyKeepsAll | src/pages/NGOAdmin/Dashboard.jsx:85-88 | An empty term keeps everybody. |
| NgoDashboard.SearchIgnoresCase | src/pages/NGOAdmin/Dashboard.jsx:85-88 | Lowering the term first gives the same results. |
| NgoDashboard.HandleSave | src/pages/NGOAdmin/Dashboard.jsx:90-99 | While editing, exactly the people with the edited id are replaced and the length is kept. Otherwise the record is appended. The form closes and the editing target is cleared. |
| NgoDashboard.EditSaveRoundTrip | src/pages/NGOAdmin/Dashboard.jsx:90-105 | Opening a person with a unique id and saving the form unchanged leaves the list as it was. |
| NgoDashboard.Reissue | src/pages/NGOAdmin/Dashboard.jsx:112-119 | Reissuing changes only the QR code, and only for the people with the target's id. |
| NgoDashboard.ReissueCommutesWithSearch | src/pages/NGOAdmin/Dashboard.jsx:85-119 | A reissue does not change who the search finds. |
| NgoDashboard.ReissueChangesCode | src/pages/NGOAdmin/Dashboard.jsx:113 | Reissues at different times give different codes. |
| NgoDashboard.StatusText | src/pages/NGOAdmin/Dashboard.jsx:129-136 | active, inactive and suspended get their labels. Any other status is shown as it is, and only those are. |
| NgoDashboard.StatusTextDistinct | src/pages/NGOAdmin/Dashboard.jsx:129-136 | Known statuses get distinct labels, and no label is itself a status. |
| StoreDashboard.HandleSave | src/pages/Store/Dashboard.jsx:89-99 | While editing, exactly the products with the edited id are replaced and the length is kept. Otherwise the record is appended. The form closes and the editing target is cleared. |
| StoreDashboard.EditSaveRoundTrip | src/pages/Store/Dashboard.jsx:89-104 | Opening an acceptable product with a unique id and saving the form unchanged leaves the list as it was. |
| StoreDashboard.HandleDelete | src/pages/Store/Dashboard.jsx:111-115 | A confirmed delete keeps exactly the products with another id. An unconfirmed delete changes nothing. |
| StoreDashboard.AddThenDelete | src/pages/Store/Dashboard.jsx:89-115 | Adding a product with a fresh id and deleting that id gives the list back. |
| StoreDashboard.DeleteAppend | src/pages/Store/Dashboard.jsx:111-115 | Deleting keeps the order of the remaining products. |
| StoreDashboard.StatusText | src/pages/Store/Dashboard.jsx:123-125 | The text is '上架' exactly for 'active', and '下架' otherwise. |
| StoreDashboard.SumAmountsAppend | src/pages/Store/Dashboard.jsx:349 | The sum of amounts grows by the appended amount. |
| StoreDashboard.TotalIncome | src/pages/Store/Dashboard.jsx:349 | The left fold of `reduce` equals the sum of the amounts. |
| StoreDashboard.MockTotal | src/pages/Store/Dashboard.jsx:343-349 | The three mock sales total 230 points. |
| Text.BlankIffAllWhitespace | src/pages/Login.jsx:16 | `!s.trim()` holds exactly when every character is white space. |
| Text.LowerIdempotent | src/pages/NGOAdmin/Dashboard.jsx:86-87 | Lowering twice is lowering once. |
| Text.IncludesIffOccurs | src/pages/NGOAdmin/Dashboard.jsx:86-87 | `includes` holds exactly when the needle occurs at some offset. |
| Text.NatToStringInjective | src/components/Forms/HomelessForm.jsx:73 | Different clock readings print differently. |
| Text.Utf16Length | src/pages/Login.jsx:22 | `length` counts UTF-16 code units: at least one and at most two per character. |
| Text.Utf16LengthConcat | src/pages/Login.jsx:22 | Code units add up over concatenation. |
| Text.Utf16LengthCountsAstral | src/pages/Login.jsx:22 | `length` equals the number of characters exactly when no character is beyond U+FFFF. |

## Left out

- Cryptography: bcrypt hashing and comparison and jsonwebtoken signing are not modelled as algorithms. The password check is a function parameter. Tokens are abstract records that only their own key verifies.
- Wiring: the Express and serverless plumbing, CORS, logging and startup in server/index.js are not modelled. Neither are the browser API client, its refresh-and-retry interceptor or the React auth hook.
- The catch branches that answer 500 '交易失敗' or '伺服器錯誤' are unreachable in the model, because nothing in it throws. The one throw that is modelled is `jwt.sign` on a lifetime that is not a timespan, which becomes 500 at login and 403 at refresh.
- Clock and environment are parameters: `Date.now()`, ISO timestamps, `NODE_ENV` and the `JWT_*` variables.
- HomelessForm.Record: one clock reading gives both the new id and the `QR_` code. The source reads `Date.now()` twice, and the two readings can differ by a millisecond.
- Cookies.ApplyAt: only the cookies received in the headers applied lapse with time. Cookies the browser held before are taken as still held.
- Concurrency: the check-then-act race between concurrent debits is not modelled. Debits are served one at a time.
- JS coercions: amounts, points and balances are integers, and `None` stands for an absent field or a non-number. The code does not enforce integrality. String or fractional amounts and `NaN` from `parseInt` are not modelled.
- ProductForm.Validate: the browser's own check on the points input (`min="1"`, whole steps) is not modelled. The box's value is taken as empty or a whole number.
- Ledger.Debit: updating by id after looking up by QR code charges the found beneficiary only when beneficiary ids are unique. The seed data has unique ids, and `Ledger.DebitChargesPayer` takes this as a hypothesis.
- Sessions.DecideRefresh: jsonwebtoken's handling of an expiry equal to the issue time (a zero lifetime) is not stated beyond what `Tokens.Verify` says.
- Cookies.ExpressClear: Express's `clearCookie` is modelled as in Express 4, with an empty value, Path=/ and an expiry at the epoch. Express 5 differences are not modelled.
- Unicode case folding: `toLowerCase` is ASCII-only. Strings are sequences of Unicode scalar values. Only the password length check counts UTF-16 code units, through `Text.Utf16Length`.
- Tokens.DurationSeconds, Tokens.Sign: only the timespans `<digits><s|m|h|d>` are accepted. The wider `ms` grammar of jsonwebtoken (decimals, spaces, long unit names, years, weeks, bare numbers) is not modelled, so such a lifetime makes signing fail in the model.
- server/middleware/auth.js is not part of this model. The Express routes use the guard of lib/middleware/auth.js.
- lib/models/users.js is not part of this model. The serverless handlers use the repository of server/models/users.js.
- The serverless lookups api/homeless/[qrCode].js and api/store/[qrCode].js are not modelled. The Express lookups of server/routes/homeless.js and server/routes/store.js are.
- The product form's image upload and its simulated OCR, which chooses a random mock result after a timer, are not modelled. The image is carried through as an opaque value.
- Rendering, tabs, routing, QR drawing and printing, and the association and beneficiary dashboards are not modelled.

=== FILE: api_auth.dfy ===
/** The serverless auth handlers under api/auth. Each first checks the HTTP
    method, then follows the same ladder as the Express route, writing its
    cookies as literal Set-Cookie headers whose Secure flag depends on
    `NODE_ENV` alone. */
module ApiAuth {
  import opened Common
  import Text
  import opened Tokens
  import opened Cookies
  import opened JwtConfig
  import opened Users
  import opened Http
  import opened AuthGuard
  import opened Sessions
  import AuthRoutes

  /** api/auth/login.js. */
  function Login(verb: string, req: LoginRequest, users: seq<User>, cfg: Config, production: bool,
                 compare: PasswordCheck, now: int): (r: Response<UserInfo>)
    ensures verb != "POST" ==> r == Failure(405, MethodNotAllowed)
    ensures verb == "POST" ==> (r.status == 400 <==> !Complete(req))
    ensures verb == "POST" ==>
              (r.status == 401 <==> DecideLogin(req, users, compare) in {UnknownUser, RoleMismatch, WrongPassword})
    ensures verb == "POST" ==>
              (r.status == 500 <==>
                 DecideLogin(req, users, compare).Accepted? &&
                 IssueTokens(DecideLogin(req, users, compare).user, cfg, now).None?)
    ensures verb == "POST" ==>
              (r.message == Some(RoleMismatchMessage) <==> DecideLogin(req, users, compare) == RoleMismatch)
    ensures r.success <==>
              verb == "POST" && DecideLogin(req, users, compare).Accepted? &&
              IssueTokens(DecideLogin(req, users, compare).user, cfg, now).Some?
    ensures !r.success ==> r.setCookies == [] && r.body.None?
    ensures r.success ==>
              var u := DecideLogin(req, users, compare).user;
              var t := IssueTokens(u, cfg, now).value;
              && r.body == Some(GetUserInfo(u))
              && r.setCookies == [HeaderCookie(AccessCookie, Signed(t.access), 900, production),
                                  HeaderCookie(RefreshCookie, Signed(t.refresh), 604800, production)]
  {
    if verb != "POST" then Failure(405, MethodNotAllowed)
    else
      match DecideLogin(req, users, compare)
      case Accepted(u) =>
        (match IssueTokens(u, cfg, now)
         case None => Failure(500, ServerError)
         case Some(t) =>
           Success(Some(LoginOkMessage), Some(GetUserInfo(u)),
                   [HeaderCookie(AccessCookie, Signed(t.access), AccessMaxAgeSeconds, production),
                    HeaderCookie(RefreshCookie, Signed(t.refresh), RefreshMaxAgeSeconds, production)]))
      case v => LoginRejection(v)
  }

  /** On POST the serverless login answers exactly as the Express route does
      when the Express cookie options are HttpOnly, SameSite=Lax, seven days
      and Secure in production: same status, body and cookies. */
  lemma LoginMatchesExpress(req: LoginRequest, users: seq<User>, cfg: Config, production: bool,
                            compare: PasswordCheck, now: int)
    requires cfg.cookieOptions == CookieOptions(true, production, "lax", SevenDaysMs)
    ensures Login("POST", req, users, cfg, production, compare, now) == AuthRoutes.Login(req, users, cfg, compare, now)
  {
  }

  /** Whatever the cookie options, the serverless login gives the same
      status, outcome, message and body as the Express route on POST: only
      the cookie headers can differ. */
  lemma LoginStatusMatchesExpress(req: LoginRequest, users: seq<User>, cfg: Config, production: bool,
                                  compare: PasswordCheck, now: int)
    ensures var r := Login("POST", req, users, cfg, production, compare, now);
            var e := AuthRoutes.Login(req, users, cfg, compare, now);
            r.status == e.status && r.success == e.success && r.message == e.message && r.body == e.body
  {
  }

  /** The placeholder lifetimes of lib/config/jwt.js are not timespans, so
      with no environment set no serverless login can succeed: an accepted
      login answers 500. */
  lemma PlaceholderLifetimesBlockLogin(req: LoginRequest, users: seq<User>, production: bool,
                                       compare: PasswordCheck, now: int)
    ensures DurationSeconds(LibConfig(EmptyEnv).accessExpiry).None?
    ensures !Login("POST", req, users, LibConfig(EmptyEnv), production, compare, now).success
    ensures DecideLogin(req, users, compare).Accepted? ==>
              Login("POST", req, users, LibConfig(EmptyEnv), production, compare, now).status == 500
  {
    var s := LibConfig(EmptyEnv).accessExpiry;
    assert s == "@JWT_ACCESS_EXPIRY";
    assert !Text.IsDigit(s[..|s| - 1][0]);
  }

  /** api/auth/logout.js. */
  function Logout(verb: string): (r: Response<UserInfo>)
    ensures verb != "POST" ==> r == Failure(405, MethodNotAllowed)
    ensures verb == "POST" ==> r.success && r.setCookies == [HeaderClear(AccessCookie), HeaderClear(RefreshCookie)]
  {
    if verb != "POST" then Failure(405, MethodNotAllowed)
    else Success(Some(LogoutOkMessage), None, [HeaderClear(AccessCookie), HeaderClear(RefreshCookie)])
  }

  /** Logging out removes both cookies from any browser store, and doing it
      again changes nothing; a non-POST request touches no cookie. */
  lemma LogoutIdempotent(jar: Jar, verb: string)
    ensures var j := Apply(jar, Logout("POST").setCookies);
            && AccessCookie !in j && RefreshCookie !in j
            && Apply(j, Logout("POST").setCookies) == j
    ensures verb != "POST" ==> Apply(jar, Logout(verb).setCookies) == jar
  {
    var cs := Logout("POST").setCookies;
    assert cs[1..] == [HeaderClear(RefreshCookie)];
    assert cs[1..][1..] == [];
    var j := Apply(jar, cs);
    assert j == jar - {AccessCookie} - {RefreshCookie};
    assert Apply(j, cs) == j - {AccessCookie} - {RefreshCookie};
  }

  /** api/auth/refresh.js. */
  function Refresh(verb: string, jar: Jar, users: seq<User>, cfg: Config, production: bool, now: int): (r: Response<UserInfo>)
    ensures verb != "POST" ==> r == Failure(405, MethodNotAllowed)
    ensures r.success <==> verb == "POST" && DecideRefresh(jar, users, cfg, now).Renewed?
    ensures r.success ==>
              r.setCookies == [HeaderCookie(AccessCookie, Signed(DecideRefresh(jar, users, cfg, now).access), 900, production)]
    ensures verb == "POST" && DecideRefresh(jar, users, cfg, now) == RefreshExpired ==>
              r.status == 401 && r.setCookies == [HeaderClear(AccessCookie), HeaderClear(RefreshCookie)]
    ensures verb == "POST" && DecideRefresh(jar, users, cfg, now) in {NoRefreshToken, SubjectGone} ==>
              r.status == 401 && r.setCookies == []
    ensures verb == "POST" ==> (r.status == 403 <==> DecideRefresh(jar, users, cfg, now) in {RefreshInvalid, SigningFailed})
    ensures r.status == 403 ==> r.setCookies == []
  {
    if verb != "POST" then Failure(405, MethodNotAllowed)
    else
      match DecideRefresh(jar, users, cfg, now)
      case NoRefreshToken => Failure(401, NoRefreshMessage)
      case RefreshExpired =>
        Response(401, false, Some(RefreshExpiredMessage), None, false,
                 [HeaderClear(AccessCookie), HeaderClear(RefreshCookie)])
      case RefreshInvalid => Failure(403, RefreshInvalidMessage)
      case SigningFailed => Failure(403, RefreshInvalidMessage)
      case SubjectGone => Failure(401, SubjectGoneMessage)
      case Renewed(_, access) =>
        Success(Some(RefreshedMessage), None, [HeaderCookie(AccessCookie, Signed(access), AccessMaxAgeSeconds, production)])
  }

  /** On POST the serverless refresh answers as the Express route does; the
      two differ only in the attributes of the clearing headers, which both
      delete the cookies. */
  lemma RefreshMatchesExpress(jar: Jar, users: seq<User>, cfg: Config, production: bool, now: int)
    requires cfg.cookieOptions == CookieOptions(true, production, "lax", SevenDaysMs)
    ensures var a := Refresh("POST", jar, users, cfg, production, now);
            var e := AuthRoutes.Refresh(jar, users, cfg, now);
            && a.status == e.status && a.success == e.success && a.message == e.message && a.body == e.body
            && |a.setCookies| == |e.setCookies|
            && (forall i :: 0 <= i < |a.setCookies| ==>
                  a.setCookies[i].name == e.setCookies[i].name &&
                  (Deletes(a.setCookies[i]) <==> Deletes(e.setCookies[i])))
            && (a.success ==> a.setCookies == e.setCookies)
  {
  }

  /** api/auth/me.js. */
  function Me(verb: string, jar: Jar, users: seq<User>, cfg: Config, now: int): (r: Response<UserInfo>)
    ensures verb != "GET" ==> r == Failure(405, MethodNotAllowed)
    ensures r.success <==> verb == "GET" && AuthenticateToken(jar, users, cfg.secret, now).Proceed?
    ensures r.expired <==>
              verb == "GET" && Read(jar, AccessCookie).Some? &&
              Verify(Read(jar, AccessCookie).value, cfg.secret, now) == Expired
    ensures r.setCookies == []
  {
    if verb != "GET" then Failure(405, MethodNotAllowed)
    else
      match AuthenticateToken(jar, users, cfg.secret, now)
      case Proceed(user) => Success(None, user, [])
      case g => HaltResponse(g)
  }

  /** On GET the serverless /me answers exactly as the Express /me route. */
  lemma MeMatchesExpress(jar: Jar, users: seq<User>, cfg: Config, now: int)
    ensures Me("GET", jar, users, cfg, now) == AuthRoutes.Me(jar, users, cfg, now)
  {
  }
}

=== FILE: auth_guard.dfy ===
/** The request guards of lib/middleware/auth.js. A guard either calls `next`
    (exactly once) with the user it attached to the request, or answers the
    request itself and never calls `next`. The Express routes import
    server/middleware/auth.js, which is not part of this model; they are
    taken to use these same guards with the server's signing key. */
module AuthGuard {
  import opened Common
  import opened UserRoles
  import opened Tokens
  import opened Cookies
  import opened Users
  import opened Http

  datatype Gate =
    | Proceed(user: Option<UserInfo>)
    | Halt(status: int, message: string, expired: bool)

  const NoTokenMessage := "未提供認證 token"
  const UserGoneMessage := "用戶不存在"
  const ExpiredMessage := "Token 已過期"
  const InvalidMessage := "無效的 token"
  const ForbiddenMessage := "權限不足"

  /** The session a valid access cookie resolves to: the current directory
      entry of the token's subject. */
  predicate Resolves(jar: Jar, users: seq<User>, key: string, now: int, u: User)
  {
    && Read(jar, AccessCookie).Some?
    && Verify(Read(jar, AccessCookie).value, key, now).Valid?
    && FindById(users, Verify(Read(jar, AccessCookie).value, key, now).claims.userId) == Some(u)
  }

  /** `authenticateToken`. */
  function AuthenticateToken(jar: Jar, users: seq<User>, key: string, now: int): (g: Gate)
    ensures g.Proceed? <==> exists u :: Resolves(jar, users, key, now, u)
    ensures g.Proceed? ==> exists u :: Resolves(jar, users, key, now, u) && g.user == Some(GetUserInfo(u))
    ensures Read(jar, AccessCookie).None? ==> g == Halt(401, NoTokenMessage, false)
    ensures Read(jar, AccessCookie).Some? && Verify(Read(jar, AccessCookie).value, key, now) == Expired ==>
              g == Halt(401, ExpiredMessage, true)
    ensures Read(jar, AccessCookie).Some? && Verify(Read(jar, AccessCookie).value, key, now) == Invalid ==>
              g == Halt(403, InvalidMessage, false)
    ensures g.Halt? && g.status == 401 && !g.expired && Read(jar, AccessCookie).Some? ==>
              g.message == UserGoneMessage
  {
    match Read(jar, AccessCookie)
    case None => Halt(401, NoTokenMessage, false)
    case Some(token) =>
      match Verify(token, key, now)
      case Expired => Halt(401, ExpiredMessage, true)
      case Invalid => Halt(403, InvalidMessage, false)
      case Valid(claims) =>
        match FindById(users, claims.userId)
        case None => Halt(401, UserGoneMessage, false)
        case Some(u) =>
          assert Resolves(jar, users, key, now, u);
          Proceed(Some(GetUserInfo(u)))
  }

  /** `authorizeRoles(...roles)`: passes a present user whose role is listed. */
  function AuthorizeRoles(user: Option<UserInfo>, roles: seq<Role>): (g: Gate)
    ensures g.Proceed? <==> user.Some? && user.value.role in roles
    ensures g.Proceed? ==> g.user == user
    ensures g.Halt? ==> g == Halt(403, ForbiddenMessage, false)
  {
    if user.None? || user.value.role !in roles then Halt(403, ForbiddenMessage, false)
    else Proceed(user)
  }

  /** `optionalAuth`: never answers the request; attaches the user when the
      access cookie resolves and nothing otherwise. */
  function OptionalAuth(jar: Jar, users: seq<User>, key: string, now: int): (g: Gate)
    ensures g.Proceed?
    ensures g.user.Some? <==> exists u :: Resolves(jar, users, key, now, u)
  {
    match Read(jar, AccessCookie)
    case None => Proceed(None)
    case Some(token) =>
      match Verify(token, key, now)
      case Valid(claims) =>
        (match FindById(users, claims.userId)
         case Some(u) =>
           assert Resolves(jar, users, key, now, u);
           Proceed(Some(GetUserInfo(u)))
         case None => Proceed(None))
      case _ => Proceed(None)
  }

  /** Where the strict guard lets a request through, the optional one
      attaches the same user; where it refuses, the optional one attaches none. */
  lemma OptionalAgreesWithStrict(jar: Jar, users: seq<User>, key: string, now: int)
    ensures AuthenticateToken(jar, users, key, now).Proceed? ==>
              OptionalAuth(jar, users, key, now) == AuthenticateToken(jar, users, key, now)
    ensures AuthenticateToken(jar, users, key, now).Halt? ==>
              OptionalAuth(jar, users, key, now) == Proceed(None)
  {
  }

  /** `authenticateToken` followed by `authorizeRoles(...roles)`. */
  function RequireRoles(jar: Jar, users: seq<User>, key: string, now: int, roles: seq<Role>): (g: Gate)
    ensures g.Proceed? ==> g.user.Some? && g.user.value.role in roles
    ensures g.Proceed? <==> exists u :: Resolves(jar, users, key, now, u) && u.role in roles
    ensures AuthenticateToken(jar, users, key, now).Halt? ==> g == AuthenticateToken(jar, users, key, now)
  {
    match AuthenticateToken(jar, users, key, now)
    case Halt(s, m, e) => Halt(s, m, e)
    case Proceed(user) => AuthorizeRoles(user, roles)
  }

  /** The JSON answer a halting guard sends. */
  function HaltResponse<P>(g: Gate): (r: Response<P>)
    requires g.Halt?
    ensures r.status == g.status && !r.success && r.message == Some(g.message)
    ensures r.expired == g.expired && r.body.None? && r.setCookies == []
  {
    Response(g.status, false, Some(g.message), None, g.expired, [])
  }
}

=== FILE: auth_routes.dfy ===
/** The Express auth routes of server/routes/auth.js: login, logout, refresh,
    /me and /verify. Cookies are written with `res.cookie` / `res.clearCookie`
    and the server configuration. */
module AuthRoutes {
  import opened Common
  import opened UserRoles
  import opened Tokens
  import opened Cookies
  import opened JwtConfig
  import opened Users
  import opened Http
  import opened AuthGuard
  import opened Sessions

  const TokenValidMessage := "Token 有效"

  /** POST /login. */
  function Login(req: LoginRequest, users: seq<User>, cfg: Config, compare: PasswordCheck, now: int): (r: Response<UserInfo>)
    ensures r.status == 400 <==> !Complete(req)
    ensures r.status == 401 <==> DecideLogin(req, users, compare) in {UnknownUser, RoleMismatch, WrongPassword}
    ensures r.message == Some(RoleMismatchMessage) <==> DecideLogin(req, users, compare) == RoleMismatch
    ensures r.status == 500 <==> DecideLogin(req, users, compare).Accepted? && IssueTokens(DecideLogin(req, users, compare).user, cfg, now).None?
    ensures r.success <==> DecideLogin(req, users, compare).Accepted? && IssueTokens(DecideLogin(req, users, compare).user, cfg, now).Some?
    ensures !r.success ==> r.setCookies == [] && r.body.None?
    ensures r.success ==>
              var u := DecideLogin(req, users, compare).user;
              var t := IssueTokens(u, cfg, now).value;
              && r.status == 200
              && r.body == Some(GetUserInfo(u))
              && r.setCookies == [ExpressCookie(AccessCookie, Signed(t.access), cfg.cookieOptions, AccessMaxAgeMs),
                                  ExpressCookie(RefreshCookie, Signed(t.refresh), cfg.cookieOptions, cfg.cookieOptions.maxAgeMs)]
  {
    match DecideLogin(req, users, compare)
    case Accepted(u) =>
      (match IssueTokens(u, cfg, now)
       case None => Failure(500, ServerError)
       case Some(t) =>
         Success(Some(LoginOkMessage), Some(GetUserInfo(u)),
                 [ExpressCookie(AccessCookie, Signed(t.access), cfg.cookieOptions, AccessMaxAgeMs),
                  ExpressCookie(RefreshCookie, Signed(t.refresh), cfg.cookieOptions, cfg.cookieOptions.maxAgeMs)]))
    case v => LoginRejection(v)
  }

  /** With the server configuration, a successful login sets a 15-minute
      access cookie and a 7-day refresh cookie, both HttpOnly, SameSite=Lax,
      Secure exactly in production. */
  lemma LoginCookieAttributes(req: LoginRequest, users: seq<User>, env: Env, compare: PasswordCheck, now: int)
    requires Login(req, users, ServerConfig(env), compare, now).success
    ensures var cs := Login(req, users, ServerConfig(env), compare, now).setCookies;
            && |cs| == 2
            && cs[0].name == AccessCookie && cs[0].lifetime == MaxAge(900)
            && cs[1].name == RefreshCookie && cs[1].lifetime == MaxAge(604800)
            && (forall i :: 0 <= i < 2 ==> cs[i].httpOnly && cs[i].sameSiteLax && cs[i].path == "/")
            && (forall i :: 0 <= i < 2 ==> (cs[i].secure <==> Production(env)))
  {
  }

  /** POST /logout: clears both cookies and succeeds, whatever the request. */
  function Logout(): (r: Response<UserInfo>)
    ensures r.success && r.status == 200
    ensures |r.setCookies| == 2
    ensures r.setCookies[0].name == AccessCookie && r.setCookies[1].name == RefreshCookie
    ensures forall i :: 0 <= i < |r.setCookies| ==> Deletes(r.setCookies[i])
  {
    Success(Some(LogoutOkMessage), None, [ExpressClear(AccessCookie), ExpressClear(RefreshCookie)])
  }

  /** POST /refresh. */
  function Refresh(jar: Jar, users: seq<User>, cfg: Config, now: int): (r: Response<UserInfo>)
    ensures r.success <==> DecideRefresh(jar, users, cfg, now).Renewed?
    ensures r.success ==>
              r.setCookies == [ExpressCookie(AccessCookie, Signed(DecideRefresh(jar, users, cfg, now).access),
                                             cfg.cookieOptions, AccessMaxAgeMs)]
    ensures DecideRefresh(jar, users, cfg, now) == RefreshExpired ==>
              r.status == 401 && r.setCookies == [ExpressClear(AccessCookie), ExpressClear(RefreshCookie)]
    ensures DecideRefresh(jar, users, cfg, now) in {NoRefreshToken, SubjectGone} ==> r.status == 401 && r.setCookies == []
    ensures r.status == 403 <==> DecideRefresh(jar, users, cfg, now) in {RefreshInvalid, SigningFailed}
    ensures r.status == 403 ==> r.setCookies == []
    ensures r.body.None? && !r.expired
  {
    match DecideRefresh(jar, users, cfg, now)
    case NoRefreshToken => Failure(401, NoRefreshMessage)
    case RefreshExpired =>
      Response(401, false, Some(RefreshExpiredMessage), None, false,
               [ExpressClear(AccessCookie), ExpressClear(RefreshCookie)])
    case RefreshInvalid => Failure(403, RefreshInvalidMessage)
    // jwt.sign throws inside the try block; the error is not a TokenExpiredError
    case SigningFailed => Failure(403, RefreshInvalidMessage)
    case SubjectGone => Failure(401, SubjectGoneMessage)
    case Renewed(_, access) =>
      Success(Some(RefreshedMessage), None, [ExpressCookie(AccessCookie, Signed(access), cfg.cookieOptions, AccessMaxAgeMs)])
  }

  /** GET /me: the guard's user, or the guard's refusal. */
  function Me(jar: Jar, users: seq<User>, cfg: Config, now: int): (r: Response<UserInfo>)
    ensures r.success <==> AuthenticateToken(jar, users, cfg.secret, now).Proceed?
    ensures r.success ==> r.body == AuthenticateToken(jar, users, cfg.secret, now).user && r.message.None?
    ensures !r.success ==> r == HaltResponse(AuthenticateToken(jar, users, cfg.secret, now))
    ensures r.setCookies == []
  {
    match AuthenticateToken(jar, users, cfg.secret, now)
    case Proceed(user) => Success(None, user, [])
    case g => HaltResponse(g)
  }

  /** GET /verify: as /me, with a confirmation message. */
  function VerifySession(jar: Jar, users: seq<User>, cfg: Config, now: int): (r: Response<UserInfo>)
    ensures r.success <==> AuthenticateToken(jar, users, cfg.secret, now).Proceed?
    ensures r.success ==> r.body == AuthenticateToken(jar, users, cfg.secret, now).user
    ensures r.success ==> r.message == Some(TokenValidMessage)
    ensures !r.success ==> r == HaltResponse(AuthenticateToken(jar, users, cfg.secret, now))
  {
    match AuthenticateToken(jar, users, cfg.secret, now)
    case Proceed(user) => Success(Some(TokenValidMessage), user, [])
    case g => HaltResponse(g)
  }

  /** Two cookie headers applied in order. */
  lemma ApplyPair(jar: Jar, a: CookieEffect, b: CookieEffect)
    requires !Deletes(a) && !Deletes(b) && a.name != b.name
    ensures Apply(jar, [a, b]) == jar[a.name := a.value][b.name := b.value]
  {
    assert [a, b][1..] == [b];
    assert [b][1..] == [];
    var ja := jar[a.name := a.value];
    assert Apply(jar, [a, b]) == Apply(ja, [b]);
    assert Apply(ja, [b]) == Apply(ja[b.name := b.value], []);
  }

  /** Two cookie headers for different names, as held at time `at`. */
  lemma ApplyPairAt(jar: Jar, a: CookieEffect, b: CookieEffect, sentAt: int, at: int)
    requires a.name != b.name
    ensures ApplyAt(jar, [a, b], sentAt, at) == Receive(Receive(jar, a, sentAt, at), b, sentAt, at)
  {
    var ja := Receive(jar, a, sentAt, at);
    assert [a, b][1..] == [b];
    assert ApplyAt(jar, [a, b], sentAt, at) == ApplyAt(ja, [b], sentAt, at);
    assert [b][1..] == [];
    assert ApplyAt(ja, [b], sentAt, at) == ApplyAt(Receive(ja, b, sentAt, at), [], sentAt, at);
  }

  /** The session a login opens, as the browser holds its cookies at a later
      time. While the 15-minute access cookie is held, the guard lets the
      user through until the access token expires and answers "expired"
      after; once the cookie has lapsed, the guard sees no token. Likewise
      the refresh route renews while the refresh cookie is held and its
      token unexpired, answers "expired" once the token expires, and sees no
      token once the cookie has lapsed. */
  lemma LoginOpensSession(req: LoginRequest, users: seq<User>, cfg: Config, compare: PasswordCheck,
                          now: int, later: int, jar: Jar)
    requires Login(req, users, cfg, compare, now).success
    requires Distinct(users, (u: User) => u.id)
    requires now <= later
    ensures var u := DecideLogin(req, users, compare).user;
            var j := ApplyAt(jar, Login(req, users, cfg, compare, now).setCookies, now, later);
            var accessHeld := later <= now + AccessMaxAgeSeconds;
            var accessEnd := now + DurationSeconds(cfg.accessExpiry).value;
            && (accessHeld && later < accessEnd ==>
                  AuthenticateToken(j, users, cfg.secret, later) == Proceed(Some(GetUserInfo(u))))
            && (accessHeld && later >= accessEnd ==>
                  AuthenticateToken(j, users, cfg.secret, later) == Halt(401, ExpiredMessage, true))
            && (!accessHeld ==> AuthenticateToken(j, users, cfg.secret, later) == Halt(401, NoTokenMessage, false))
  {
    var r := Login(req, users, cfg, compare, now);
    var u := DecideLogin(req, users, compare).user;
    var t := IssueTokens(u, cfg, now).value;
    ApplyPairAt(jar, r.setCookies[0], r.setCookies[1], now, later);
    var j := ApplyAt(jar, r.setCookies, now, later);
    if later <= now + AccessMaxAgeSeconds {
      assert Read(j, AccessCookie) == Some(Signed(t.access));
      var i :| 0 <= i < |users| && users[i] == u;
      FindByIdUnique(users, i);
    } else {
      assert Read(j, AccessCookie).None?;
    }
  }

  /** The refresh half of the session a login opens: renewal while the
      refresh cookie is held and its token unexpired, "expired" once the token
      expires, and no token once the cookie has lapsed. */
  lemma LoginOpensRefreshWindow(req: LoginRequest, users: seq<User>, cfg: Config, compare: PasswordCheck,
                                now: int, later: int, jar: Jar)
    requires Login(req, users, cfg, compare, now).success
    requires Distinct(users, (u: User) => u.id)
    requires now <= later
    ensures var u := DecideLogin(req, users, compare).user;
            var j := ApplyAt(jar, Login(req, users, cfg, compare, now).setCookies, now, later);
            var refreshHeld := cfg.cookieOptions.maxAgeMs / 1000 > 0 && later <= now + cfg.cookieOptions.maxAgeMs / 1000;
            var refreshEnd := now + DurationSeconds(cfg.refreshExpiry).value;
            && (refreshHeld && later < refreshEnd ==>
                  DecideRefresh(j, users, cfg, later).Renewed? && DecideRefresh(j, users, cfg, later).user == u)
            && (refreshHeld && later >= refreshEnd ==> DecideRefresh(j, users, cfg, later) == RefreshExpired)
            && (!refreshHeld ==> DecideRefresh(j, users, cfg, later) == NoRefreshToken)
  {
    var r := Login(req, users, cfg, compare, now);
    var u := DecideLogin(req, users, compare).user;
    var t := IssueTokens(u, cfg, now).value;
    ApplyPairAt(jar, r.setCookies[0], r.setCookies[1], now, later);
    var j := ApplyAt(jar, r.setCookies, now, later);
    if cfg.cookieOptions.maxAgeMs / 1000 > 0 && later <= now + cfg.cookieOptions.maxAgeMs / 1000 {
      assert Read(j, RefreshCookie) == Some(Signed(t.refresh));
      var i :| 0 <= i < |users| && users[i] == u;
      FindByIdUnique(users, i);
    } else {
      assert Read(j, RefreshCookie).None?;
    }
  }

  /** Refreshing reads the subject's account afresh: the new access token
      carries the role stored now, not the role at login. */
  lemma RefreshUsesCurrentRole(jar: Jar, users: seq<User>, cfg: Config, now: int, i: int)
    requires Distinct(users, (u: User) => u.id) && 0 <= i < |users|
    requires Read(jar, RefreshCookie).Some?
    requires Verify(Read(jar, RefreshCookie).value, cfg.refreshSecret, now) == Valid(Claims(users[i].id, None))
    requires DurationSeconds(cfg.accessExpiry).Some?
    ensures Refresh(jar, users, cfg, now).success
    ensures DecideRefresh(jar, users, cfg, now).access.claims == Claims(users[i].id, Some(users[i].role))
  {
    FindByIdUnique(users, i);
  }

  /** After logout neither cookie remains: the guard sees no token, refresh
      sees no token, and logging out again leaves the cookies as they are. */
  lemma LogoutEndsSession(jar: Jar, users: seq<User>, cfg: Config, now: int)
    ensures var j := Apply(jar, Logout().setCookies);
            && AccessCookie !in j && RefreshCookie !in j
            && AuthenticateToken(j, users, cfg.secret, now) == Halt(401, NoTokenMessage, false)
            && Refresh(j, users, cfg, now).status == 401 && Refresh(j, users, cfg, now).setCookies == []
            && Apply(j, Logout().setCookies) == j
  {
    var cs := Logout().setCookies;
    assert cs[1..] == [ExpressClear(RefreshCookie)];
    assert cs[1..][1..] == [];
    var j := Apply(jar, cs);
    assert j == jar - {AccessCookie} - {RefreshCookie};
    assert Apply(j, cs) == j - {AccessCookie} - {RefreshCookie};
  }

  /** With distinct keys (the default configuration), a refresh token offered
      as the access cookie is refused as invalid, and an access token offered
      as the refresh cookie likewise. */
  lemma KeysSeparateTokenKinds(jar: Jar, users: seq<User>, cfg: Config, now: int, t: Token)
    requires cfg.secret != cfg.refreshSecret
    ensures t.key == cfg.refreshSecret ==>
              AuthenticateToken(jar[AccessCookie := Signed(t)], users, cfg.secret, now) == Halt(403, InvalidMessage, false)
    ensures t.key == cfg.secret ==>
              Refresh(jar[RefreshCookie := Signed(t)], users, cfg, now).status == 403
  {
  }
}

=== FILE: beneficiary_routes.dfy ===
/** The beneficiary routes of server/routes/homeless.js: the public lookup by
    QR code used when a card is scanned, the list restricted to NGO staff,
    and the balance correction open to any signed-in account. */
module BeneficiaryRoutes {
  import opened Common
  import opened UserRoles
  import opened Cookies
  import opened Users
  import opened Http
  import opened AuthGuard

  const NotFoundMessage := "找不到該街友資訊"
  const InvalidBalanceMessage := "無效的餘額金額"
  const UnknownIdMessage := "找不到該街友"
  const BalanceUpdatedMessage := "餘額更新成功"

  /** The roles allowed to list beneficiaries. */
  const StaffRoles: seq<Role> := [NgoAdmin, NgoPartner]

  /** The `data` of an answer: one record, all records, or `{ id, newBalance }`. */
  datatype Payload = One(beneficiary: Beneficiary) | All(beneficiaries: seq<Beneficiary>) | BalanceSet(id: string, newBalance: int)

  /** GET /:qrCode, with no guard: the first record carrying the code. */
  function Lookup(bs: seq<Beneficiary>, qrCode: string): (r: Response<Payload>)
    ensures r.success <==> exists i :: 0 <= i < |bs| && bs[i].qrCode == qrCode
    ensures r.success ==> r.status == 200 && r.body.Some? && r.body.value.One? &&
                          r.body.value.beneficiary in bs && r.body.value.beneficiary.qrCode == qrCode
    ensures r.success ==> exists i :: 0 <= i < |bs| && bs[i] == r.body.value.beneficiary &&
                                      forall j :: 0 <= j < i ==> bs[j].qrCode != qrCode
    ensures !r.success ==> r == Failure(404, NotFoundMessage)
  {
    match FindBeneficiaryByQrCode(bs, qrCode)
    case None => Failure(404, NotFoundMessage)
    case Some(b) => Success(None, Some(One(b)), [])
  }

  /** GET /, behind `authenticateToken` and `authorizeRoles('ngo_admin', 'ngo_partner')`. */
  function List(jar: Jar, users: seq<User>, key: string, now: int, bs: seq<Beneficiary>): (r: Response<Payload>)
    ensures r.success <==> exists u :: Resolves(jar, users, key, now, u) && u.role in StaffRoles
    ensures r.success ==> r.body == Some(All(bs))
    ensures !r.success ==> r == HaltResponse(RequireRoles(jar, users, key, now, StaffRoles))
  {
    match RequireRoles(jar, users, key, now, StaffRoles)
    case Proceed(_) => Success(None, Some(All(bs)), [])
    case g => HaltResponse(g)
  }

  datatype PatchOutcome = PatchOutcome(response: Response<Payload>, beneficiaries: seq<Beneficiary>)

  /** The body check `typeof newBalance !== 'number' || newBalance < 0`,
      negated; `None` is a value that is not a number. */
  predicate ValidBalance(newBalance: Option<int>)
  {
    newBalance.Some? && newBalance.value >= 0
  }

  /** PATCH /:id/balance, behind `authenticateToken` only. */
  function PatchBalance(jar: Jar, users: seq<User>, key: string, now: int, bs: seq<Beneficiary>,
                        id: string, newBalance: Option<int>): (o: PatchOutcome)
    ensures AuthenticateToken(jar, users, key, now).Halt? ==>
              o == PatchOutcome(HaltResponse(AuthenticateToken(jar, users, key, now)), bs)
    ensures AuthenticateToken(jar, users, key, now).Proceed? && !ValidBalance(newBalance) ==>
              o == PatchOutcome(Failure(400, InvalidBalanceMessage), bs)
    ensures AuthenticateToken(jar, users, key, now).Proceed? && ValidBalance(newBalance) &&
            (forall i :: 0 <= i < |bs| ==> bs[i].id != id) ==>
              o == PatchOutcome(Failure(404, UnknownIdMessage), bs)
    ensures o.response.success <==>
              AuthenticateToken(jar, users, key, now).Proceed? && ValidBalance(newBalance) &&
              exists i :: 0 <= i < |bs| && bs[i].id == id
    ensures !o.response.success ==> o.beneficiaries == bs
    ensures o.response.success ==>
              && o.response.body == Some(BalanceSet(id, newBalance.value))
              && o.beneficiaries == UpdateBalance(bs, id, newBalance.value).beneficiaries
  {
    match AuthenticateToken(jar, users, key, now)
    case Halt(s, m, e) => PatchOutcome(HaltResponse(Halt(s, m, e)), bs)
    case Proceed(_) =>
      if !ValidBalance(newBalance) then PatchOutcome(Failure(400, InvalidBalanceMessage), bs)
      else
        var u := UpdateBalance(bs, id, newBalance.value);
        if !u.found then PatchOutcome(Failure(404, UnknownIdMessage), bs)
        else PatchOutcome(Success(Some(BalanceUpdatedMessage), Some(BalanceSet(id, newBalance.value)), []),
                          u.beneficiaries)
  }

  /** A balance correction never breaks the repository invariants: negative
      balances are refused before any update. */
  lemma PatchKeepsWellFormed(jar: Jar, users: seq<User>, key: string, now: int, bs: seq<Beneficiary>,
                             id: string, newBalance: Option<int>)
    requires WellFormedBeneficiaries(bs)
    ensures WellFormedBeneficiaries(PatchBalance(jar, users, key, now, bs, id, newBalance).beneficiaries)
  {
    if PatchBalance(jar, users, key, now, bs, id, newBalance).response.success {
      UpdateBalancePreservesWellFormed(bs, id, newBalance.value);
    }
  }

  /** After a correction of the beneficiary at `i` (the first carrying its QR
      code, ids unique), scanning its card shows the new balance. */
  lemma PatchThenLookup(jar: Jar, users: seq<User>, key: string, now: int, bs: seq<Beneficiary>,
                        i: int, newBalance: int)
    requires Distinct(bs, (b: Beneficiary) => b.id)
    requires 0 <= i < |bs| && forall j :: 0 <= j < i ==> bs[j].qrCode != bs[i].qrCode
    requires AuthenticateToken(jar, users, key, now).Proceed? && newBalance >= 0
    ensures var o := PatchBalance(jar, users, key, now, bs, bs[i].id, Some(newBalance));
            && o.response.success
            && Lookup(o.beneficiaries, bs[i].qrCode).body == Some(One(bs[i].(balance := newBalance)))
  {
    UpdateBalanceUnique(bs, i, newBalance);
    var nb := bs[i := bs[i].(balance := newBalance)];
    assert forall j :: 0 <= j < i ==> nb[j].qrCode != bs[i].qrCode;
    assert nb[i].qrCode == bs[i].qrCode;
    FindBeneficiaryAt(nb, bs[i].qrCode, i);
  }

  /** Any signed-in account may correct a balance, whatever its role: the
      route has no role check. */
  lemma PatchIgnoresRole(jar: Jar, users: seq<User>, key: string, now: int, bs: seq<Beneficiary>,
                         i: int, newBalance: int, u: User)
    requires Resolves(jar, users, key, now, u)
    requires 0 <= i < |bs| && newBalance >= 0
    ensures PatchBalance(jar, users, key, now, bs, bs[i].id, Some(newBalance)).response.success
  {
  }
}

=== FILE: common.dfy ===
/** Option and the handful of Array.prototype operations the handlers use:
    `find`/`findIndex`, `filter`, and `map` with a per-element replacement. */
module Common {

  datatype Option<+T> = None | Some(value: T)

  /** JavaScript truthiness of an optional string field: present and non-empty. */
  predicate Supplied(v: Option<string>)
  {
    v.Some? && v.value != ""
  }

  /** Index of the first element satisfying `p`, as `Array.prototype.findIndex`. */
  function FirstIndex<T>(s: seq<T>, p: T -> bool): (r: Option<nat>)
    ensures r.Some? ==> r.value < |s| && p(s[r.value])
    ensures r.Some? ==> forall j :: 0 <= j < r.value ==> !p(s[j])
    ensures r.None? <==> forall j :: 0 <= j < |s| ==> !p(s[j])
  {
    if |s| == 0 then None
    else if p(s[0]) then Some(0)
    else
      match FirstIndex(s[1..], p)
      case None => None
      case Some(i) => Some(i + 1)
  }

  /** The first element satisfying `p`, as `Array.prototype.find`. */
  function Find<T>(s: seq<T>, p: T -> bool): (r: Option<T>)
    ensures r.None? <==> forall j :: 0 <= j < |s| ==> !p(s[j])
    ensures r.Some? ==> p(r.value)
    ensures r.Some? ==> exists i :: 0 <= i < |s| && s[i] == r.value && forall j :: 0 <= j < i ==> !p(s[j])
  {
    match FirstIndex(s, p)
    case None => None
    case Some(i) => Some(s[i])
  }

  /** The elements satisfying `p`, in order, as `Array.prototype.filter`. */
  function Filter<T>(s: seq<T>, p: T -> bool): (r: seq<T>)
    ensures |r| <= |s|
    ensures forall i :: 0 <= i < |r| ==> p(r[i])
    ensures forall i :: 0 <= i < |r| ==> r[i] in s
    ensures forall i :: 0 <= i < |s| && p(s[i]) ==> s[i] in r
    ensures (forall i :: 0 <= i < |s| ==> p(s[i])) ==> r == s
  {
    if |s| == 0 then []
    else if p(s[0]) then [s[0]] + Filter(s[1..], p)
    else Filter(s[1..], p)
  }

  /** Filtering distributes over concatenation: the relative order of the kept
      elements is that of the input. */
  lemma {:induction false} FilterConcat<T>(a: seq<T>, b: seq<T>, p: T -> bool)
    ensures Filter(a + b, p) == Filter(a, p) + Filter(b, p)
  {
    if |a| == 0 {
      assert a + b == b;
    } else {
      assert (a + b)[0] == a[0];
      assert (a + b)[1..] == a[1..] + b;
      FilterConcat(a[1..], b, p);
    }
  }

  /** `list.map(x => p(x) ? y : x)`: every element satisfying `p` becomes `y`. */
  function ReplaceWhere<T>(s: seq<T>, p: T -> bool, y: T): (r: seq<T>)
    ensures |r| == |s|
    ensures forall i :: 0 <= i < |s| && p(s[i]) ==> r[i] == y
    ensures forall i :: 0 <= i < |s| && !p(s[i]) ==> r[i] == s[i]
  {
    if |s| == 0 then []
    else [if p(s[0]) then y else s[0]] + ReplaceWhere(s[1..], p, y)
  }

  /** `list.map(x => p(x) ? f(x) : x)`: every element satisfying `p` is
      rewritten by `f`, the others stay. */
  function UpdateWhere<T>(s: seq<T>, p: T -> bool, f: T -> T): (r: seq<T>)
    ensures |r| == |s|
    ensures forall i :: 0 <= i < |s| && p(s[i]) ==> r[i] == f(s[i])
    ensures forall i :: 0 <= i < |s| && !p(s[i]) ==> r[i] == s[i]
  {
    if |s| == 0 then []
    else [if p(s[0]) then f(s[0]) else s[0]] + UpdateWhere(s[1..], p, f)
  }

  /** A rewrite that never changes whether an element is kept commutes with
      filtering. */
  lemma {:induction false} FilterUpdateWhere<T>(s: seq<T>, keep: T -> bool, p: T -> bool, f: T -> T)
    requires forall x :: keep(f(x)) == keep(x)
    ensures Filter(UpdateWhere(s, p, f), keep) == UpdateWhere(Filter(s, keep), p, f)
  {
    if |s| > 0 {
      FilterUpdateWhere(s[1..], keep, p, f);
      var u := UpdateWhere(s, p, f);
      assert u[1..] == UpdateWhere(s[1..], p, f);
    }
  }

  /** Pairwise distinct keys. */
  predicate Distinct<T, K(==)>(s: seq<T>, key: T -> K)
  {
    forall i, j :: 0 <= i < j < |s| ==> key(s[i]) != key(s[j])
  }
}

=== FILE: cookies.dfy ===
/** The two session cookies and the Set-Cookie effects a response carries.
    A cookie whose Max-Age is zero or negative, or whose expiry date is in the
    past, is deleted by the browser (sections 5.2.1 and 5.2.2 of RFC 6265). */
module Cookies {
  import opened Common
  import opened Tokens
  import opened JwtConfig

  const AccessCookie := "accessToken"
  const RefreshCookie := "refreshToken"

  /** Fifteen minutes, the access cookie lifetime. */
  const AccessMaxAgeSeconds: int := 15 * 60
  const AccessMaxAgeMs: int := 15 * 60 * 1000
  /** Seven days, the refresh cookie lifetime of the serverless handlers. */
  const RefreshMaxAgeSeconds: int := 7 * 24 * 60 * 60

  datatype Lifetime = MaxAge(seconds: int) | ExpiresAtEpoch

  /** One Set-Cookie header, as its attributes. */
  datatype CookieEffect = CookieEffect(
    name: string,
    value: Presented,
    httpOnly: bool,
    secure: bool,
    sameSiteLax: bool,
    path: string,
    lifetime: Lifetime)

  /** The browser deletes the cookie on receiving this header. */
  predicate Deletes(e: CookieEffect)
  {
    match e.lifetime
    case MaxAge(s) => s <= 0
    case ExpiresAtEpoch => true
  }

  /** The cookies of an incoming request, by name, as parsed from its Cookie header. */
  type Jar = map<string, Presented>

  /** `cookies[name]` checked with `!token`: an absent cookie and an empty one are both "no token". */
  function Read(jar: Jar, name: string): (r: Option<Presented>)
    ensures r.None? <==> name !in jar || jar[name] == Garbled("")
    ensures r.Some? ==> r.value == jar[name]
  {
    if name in jar && jar[name] != Garbled("") then Some(jar[name]) else None
  }

  /** Express `res.cookie(name, value, { ...options, maxAge })`: the Max-Age
      attribute is the millisecond option in whole seconds and the path is `/`. */
  function ExpressCookie(name: string, value: Presented, opts: CookieOptions, maxAgeMs: int): (e: CookieEffect)
    ensures e.name == name && e.value == value && e.path == "/"
    ensures e.httpOnly == opts.httpOnly && e.secure == opts.secure
    ensures e.sameSiteLax <==> opts.sameSite == "lax"
    ensures maxAgeMs >= 0 ==> e.lifetime == MaxAge(maxAgeMs / 1000)
  {
    CookieEffect(name, value, opts.httpOnly, opts.secure, opts.sameSite == "lax", "/", MaxAge(maxAgeMs / 1000))
  }

  /** Express `res.clearCookie(name)`: an empty value expiring at the epoch, path `/`, no other attributes. */
  function ExpressClear(name: string): (e: CookieEffect)
    ensures e.name == name && Deletes(e)
    ensures !e.httpOnly && !e.secure && !e.sameSiteLax
  {
    CookieEffect(name, Garbled(""), false, false, false, "/", ExpiresAtEpoch)
  }

  /** The literal header `name=value; HttpOnly; Path=/; Max-Age=n; SameSite=Lax`
      followed by `; Secure` in production. */
  function HeaderCookie(name: string, value: Presented, maxAge: int, production: bool): (e: CookieEffect)
    ensures e.name == name && e.value == value && e.lifetime == MaxAge(maxAge)
    ensures e.httpOnly && e.sameSiteLax && e.path == "/"
    ensures e.secure <==> production
  {
    CookieEffect(name, value, true, production, true, "/", MaxAge(maxAge))
  }

  /** The literal clearing header `name=; HttpOnly; Path=/; Max-Age=0; SameSite=Lax`. */
  function HeaderClear(name: string): (e: CookieEffect)
    ensures e.name == name && Deletes(e) && e.value == Garbled("")
    ensures e.httpOnly && e.sameSiteLax && e.path == "/" && !e.secure
  {
    HeaderCookie(name, Garbled(""), 0, false)
  }

  /** The browser's cookie store after receiving `effects` in order. */
  function Apply(jar: Jar, effects: seq<CookieEffect>): Jar
    decreases |effects|
  {
    if |effects| == 0 then jar
    else
      var e := effects[0];
      var next := if Deletes(e) then jar - {e.name} else jar[e.name := e.value];
      Apply(next, effects[1..])
  }

  /** Whether the cookie set by `e` at time `sentAt` is gone by time `at`.
      Section 5.2.2 of RFC 6265 puts the expiry at the receipt time plus
      Max-Age, or at the earliest representable time when Max-Age is not
      positive, and section 5.3 evicts a cookie once its expiry is in the past. */
  predicate Lapsed(e: CookieEffect, sentAt: int, at: int)
  {
    match e.lifetime
    case MaxAge(s) => s <= 0 || sentAt + s < at
    case ExpiresAtEpoch => true
  }

  /** The cookie one header leaves in the store at time `at`. */
  function Receive(jar: Jar, e: CookieEffect, sentAt: int, at: int): Jar
  {
    if Lapsed(e, sentAt, at) then jar - {e.name} else jar[e.name := e.value]
  }

  /** The cookie store at time `at` after receiving `effects` at time
      `sentAt`. The cookies held before are taken as still held: only the
      lifetimes of the received cookies are followed. */
  function ApplyAt(jar: Jar, effects: seq<CookieEffect>, sentAt: int, at: int): Jar
    decreases |effects|
  {
    if |effects| == 0 then jar else ApplyAt(Receive(jar, effects[0], sentAt, at), effects[1..], sentAt, at)
  }

  /** At the moment of receipt a header lapses exactly when it deletes, so the
      timed store is the store the headers leave. */
  lemma {:induction false} ApplyAtReceipt(jar: Jar, effects: seq<CookieEffect>, t: int)
    ensures ApplyAt(jar, effects, t, t) == Apply(jar, effects)
    decreases |effects|
  {
    if |effects| > 0 {
      var e := effects[0];
      assert Lapsed(e, t, t) <==> Deletes(e);
      ApplyAtReceipt(Receive(jar, e, t, t), effects[1..], t);
    }
  }

  /** Cookies only lapse: a header that lapses by some time has lapsed by
      every later time. */
  lemma LapseIsFinal(e: CookieEffect, sentAt: int, at: int, later: int)
    requires at <= later && Lapsed(e, sentAt, at)
    ensures Lapsed(e, sentAt, later)
  {
  }

  /** After effects that end by deleting a cookie, that cookie is gone. */
  lemma ApplyDeletesLast(jar: Jar, effects: seq<CookieEffect>, name: string)
    requires |effects| > 0
    requires Deletes(effects[|effects| - 1]) && effects[|effects| - 1].name == name
    ensures name !in Apply(jar, effects)
  {
    ApplyNameFrame(jar, effects, name);
  }

  /** Only the last effect naming a cookie decides that cookie. */
  lemma {:induction false} ApplyNameFrame(jar: Jar, effects: seq<CookieEffect>, name: string)
    ensures (forall i :: 0 <= i < |effects| ==> effects[i].name != name) ==>
              (name in Apply(jar, effects) <==> name in jar) &&
              (name in jar ==> Apply(jar, effects)[name] == jar[name])
    ensures |effects| > 0 && effects[|effects| - 1].name == name ==>
              if Deletes(effects[|effects| - 1]) then name !in Apply(jar, effects)
              else name in Apply(jar, effects) && Apply(jar, effects)[name] == effects[|effects| - 1].value
    decreases |effects|
  {
    if |effects| > 0 {
      var e := effects[0];
      var next := if Deletes(e) then jar - {e.name} else jar[e.name := e.value];
      ApplyNameFrame(next, effects[1..], name);
      assert Apply(jar, effects) == Apply(next, effects[1..]);
      if |effects| == 1 {
        assert Apply(next, effects[1..]) == next;
      } else {
        assert effects[1..][|effects[1..]| - 1] == effects[|effects| - 1];
      }
    }
  }
}

/** The uniform response envelope `{ success, message?, data|user?, expired? }`
    with its status code and the Set-Cookie headers sent with it. */
module Http {
  import opened Common
  import opened Cookies

  datatype Response<P> = Response(
    status: int,
    success: bool,
    message: Option<string>,
    body: Option<P>,
    expired: bool,
    setCookies: seq<CookieEffect>)

  /** `res.status(status).json({ success: false, message })`. */
  function Failure<P>(status: int, message: string): Response<P>
  {
    Response(status, false, Some(message), None, false, [])
  }

  /** `res.json({ success: true, ... })`. */
  function Success<P>(message: Option<string>, body: Option<P>, cookies: seq<CookieEffect>): Response<P>
  {
    Response(200, true, message, body, false, cookies)
  }

  const MethodNotAllowed := "Method not allowed"
  const ServerError := "伺服器錯誤"
}

=== FILE: form_state.dfy ===
/** What the three React forms share: an error map from field to message,
    which `validateForm` rebuilds from scratch (a form is valid when it has no
    key at all), and which `handleChange` edits by blanking the message of the
    field being typed into. */
module FormState {

  /** `Object.keys(newErrors).length === 0`. */
  predicate NoErrors<K(==)>(errors: map<K, string>)
  {
    |errors| == 0
  }

  lemma NoErrorsIffNoKey<K>(errors: map<K, string>)
    ensures NoErrors(errors) <==> forall k :: k !in errors
  {
    if !NoErrors(errors) {
      var k :| k in errors.Keys;
    }
  }

  /** `if (errors[name]) setErrors({ ...errors, [name]: '' })`: the key stays,
      its message becomes the empty string. */
  function ClearError<K(==)>(errors: map<K, string>, k: K): (r: map<K, string>)
    ensures r.Keys == errors.Keys
    ensures k in errors ==> r[k] == ""
    ensures forall j :: j in errors && j != k ==> r[j] == errors[j]
  {
    if k in errors && errors[k] != "" then errors[k := ""] else errors
  }

  /** A form as its component holds it: the fields and the last errors. */
  datatype Editor<D, K> = Editor(draft: D, errors: map<K, string>)

  /** `handleChange` for the input keyed `k`: the fields become `draft`, the
      fields after the edit, and only that input's message is blanked. */
  function Change<D, K(==)>(ed: Editor<D, K>, k: K, draft: D): (r: Editor<D, K>)
    ensures r.draft == draft
    ensures r.errors.Keys == ed.errors.Keys
    ensures forall g :: g != k && g in ed.errors ==> r.errors[g] == ed.errors[g]
    ensures k in r.errors ==> r.errors[k] == ""
  {
    Editor(draft, ClearError(ed.errors, k))
  }

  /** A shown message is a non-empty one; clearing hides the field's message
      and is idempotent. */
  lemma ClearErrorHides<K>(errors: map<K, string>, k: K)
    ensures !(k in ClearError(errors, k) && ClearError(errors, k)[k] != "")
    ensures ClearError(ClearError(errors, k), k) == ClearError(errors, k)
  {
  }
}

=== FILE: homeless_form.dfy ===
/** The beneficiary form of src/components/Forms/HomelessForm.jsx: the
    national-ID and mobile-number validators, the submit gate with the record
    it builds, and per-field edits. The ID check is a format check only (a
    capital letter, 1 or 2, eight digits); the check digit is not verified. */
module HomelessForm {
  import opened Common
  import opened Text
  import opened FormState

  datatype Field = Name | IdNumber | Phone | Address | EmergencyContact | EmergencyPhone | Notes | Status

  /** The fields the form edits. */
  datatype Profile = Profile(
    name: string,
    idNumber: string,
    phone: string,
    address: string,
    emergencyContact: string,
    emergencyPhone: string,
    notes: string,
    status: string)

  const DefaultStatus := "active"
  const BlankProfile := Profile("", "", "", "", "", "", "", DefaultStatus)

  /** A beneficiary as the NGO dashboard lists it: the form's fields plus the
      four the form does not edit. */
  datatype Person = Person(id: int, profile: Profile, balance: int, qrCode: string, createdAt: string)

  const NameRequired := "請輸入姓名"
  const IdRequired := "請輸入身分證字號"
  const IdMalformed := "身分證字號格式不正確"
  const PhoneMalformed := "手機號碼格式不正確"

  function Get(p: Profile, f: Field): string
  {
    match f
    case Name => p.name
    case IdNumber => p.idNumber
    case Phone => p.phone
    case Address => p.address
    case EmergencyContact => p.emergencyContact
    case EmergencyPhone => p.emergencyPhone
    case Notes => p.notes
    case Status => p.status
  }

  /** `setFormData({ ...formData, [name]: value })`. */
  function Set(p: Profile, f: Field, v: string): (r: Profile)
    ensures Get(r, f) == v
    ensures forall g :: g != f ==> Get(r, g) == Get(p, g)
  {
    match f
    case Name => p.(name := v)
    case IdNumber => p.(idNumber := v)
    case Phone => p.(phone := v)
    case Address => p.(address := v)
    case EmergencyContact => p.(emergencyContact := v)
    case EmergencyPhone => p.(emergencyPhone := v)
    case Notes => p.(notes := v)
    case Status => p.(status := v)
  }

  /** The fields the form opens with: the edited person's, with `'active'`
      for a missing status, or blank ones for a new person. */
  function Load(person: Option<Person>): (p: Profile)
    ensures person.None? ==> p == BlankProfile
    ensures person.Some? ==> forall f :: f != Status ==> Get(p, f) == Get(person.value.profile, f)
    ensures p.status != ""
    ensures person.Some? && person.value.profile.status != "" ==> p.status == person.value.profile.status
  {
    match person
    case None => BlankProfile
    case Some(q) => if q.profile.status == "" then q.profile.(status := DefaultStatus) else q.profile
  }

  predicate IsUpper(c: char)
  {
    'A' <= c <= 'Z'
  }

  /** `/^[A-Z][12][0-9]{8}$/`. */
  predicate IdPattern(s: string)
  {
    |s| == 10 && IsUpper(s[0]) && (s[1] == '1' || s[1] == '2') && AllDigits(s[2..])
  }

  /** `/^09\d{8}$/`. */
  predicate MobilePattern(s: string)
  {
    |s| == 10 && s[0] == '0' && s[1] == '9' && AllDigits(s[2..])
  }

  /** The characters `/[-\s]/` matches. */
  predicate IsSeparator(c: char)
  {
    c == '-' || IsWhitespace(c)
  }

  /** `phone.replace(/[-\s]/g, '')`: the characters that are not separators,
      in order. */
  function StripSeparators(s: string): (r: string)
    ensures |r| <= |s|
  {
    if |s| == 0 then ""
    else if IsSeparator(s[0]) then StripSeparators(s[1..])
    else [s[0]] + StripSeparators(s[1..])
  }

  /** Stripping leaves no separator, and a number without separators is
      left as it is. */
  lemma {:induction false} StripRemovesOnlySeparators(s: string)
    ensures forall i :: 0 <= i < |StripSeparators(s)| ==> !IsSeparator(StripSeparators(s)[i])
    ensures (forall i :: 0 <= i < |s| ==> !IsSeparator(s[i])) ==> StripSeparators(s) == s
  {
    if |s| > 0 {
      StripRemovesOnlySeparators(s[1..]);
      if !IsSeparator(s[0]) {
        var t := StripSeparators(s[1..]);
        assert StripSeparators(s) == [s[0]] + t;
        assert forall i :: 1 <= i < |StripSeparators(s)| ==> StripSeparators(s)[i] == t[i - 1];
        if forall i :: 0 <= i < |s| ==> !IsSeparator(s[i]) {
          assert forall i :: 0 <= i < |s[1..]| ==> s[1..][i] == s[i + 1];
          assert s == [s[0]] + s[1..];
        }
      }
    }
  }

  lemma {:induction false} StripConcat(a: string, b: string)
    ensures StripSeparators(a + b) == StripSeparators(a) + StripSeparators(b)
  {
    if |a| == 0 {
      assert a + b == b;
    } else {
      assert (a + b)[0] == a[0];
      assert (a + b)[1..] == a[1..] + b;
      StripConcat(a[1..], b);
    }
  }

  /** Separators anywhere in the number do not matter: removing one leaves
      the stripped number unchanged, and stripping twice is stripping once. */
  lemma SeparatorsIgnored(a: string, c: char, b: string)
    requires IsSeparator(c)
    ensures StripSeparators(a + [c] + b) == StripSeparators(a + b)
    ensures StripSeparators(StripSeparators(a)) == StripSeparators(a)
  {
    StripConcat(a + [c], b);
    StripConcat(a, [c]);
    StripConcat(a, b);
    assert StripSeparators([c]) == "";
    StripRemovesOnlySeparators(a);
    StripRemovesOnlySeparators(StripSeparators(a));
  }

  /** An ID in the expected format is never blank: it starts with a letter. */
  lemma IdPatternNotBlank(s: string)
    ensures IdPattern(s) ==> !Blank(s)
  {
    BlankIffAllWhitespace(s);
    if IdPattern(s) {
      assert !IsWhitespace(s[0]);
    }
  }

  /** The phone check: a number was typed and, without separators, it is not
      a mobile number. An empty phone is accepted. */
  predicate PhoneRejected(phone: string)
  {
    phone != "" && !MobilePattern(StripSeparators(phone))
  }

  /** The message the ID check records, or `""` when the ID is accepted:
      "required" for a blank ID, "malformed" for any other ID not in the
      national-ID format. */
  function IdMessage(s: string): (m: string)
    ensures m == "" <==> IdPattern(s)
    ensures m != "" ==> m == if Blank(s) then IdRequired else IdMalformed
  {
    IdPatternNotBlank(s);
    if Blank(s) then IdRequired else if !IdPattern(s) then IdMalformed else ""
  }

  /** The error map from the outcome of each check: the name check, the ID
      message (`""` when the ID is accepted) and the phone check. */
  function Errors(nameBad: bool, id: string, phoneBad: bool): (errors: map<Field, string>)
    ensures Name in errors <==> nameBad
    ensures IdNumber in errors <==> id != ""
    ensures Phone in errors <==> phoneBad
    ensures forall f :: f in errors ==> f == Name || f == IdNumber || f == Phone
    ensures Name in errors ==> errors[Name] == NameRequired
    ensures IdNumber in errors ==> errors[IdNumber] == id
    ensures Phone in errors ==> errors[Phone] == PhoneMalformed
  {
    var e1 := if nameBad then map[Name := NameRequired] else map[];
    var e2 := if id != "" then e1[IdNumber := id] else e1;
    if phoneBad then e2[Phone := PhoneMalformed] else e2
  }

  /** `validateForm`: the errors it records. */
  function Validate(p: Profile): (errors: map<Field, string>)
    ensures Name in errors <==> Blank(p.name)
    ensures IdNumber in errors <==> !IdPattern(p.idNumber)
    ensures Phone in errors <==> PhoneRejected(p.phone)
    ensures forall f :: f in errors ==> f == Name || f == IdNumber || f == Phone
    ensures Name in errors ==> errors[Name] == NameRequired
    ensures IdNumber in errors ==> errors[IdNumber] == if Blank(p.idNumber) then IdRequired else IdMalformed
    ensures Phone in errors ==> errors[Phone] == PhoneMalformed
  {
    Errors(Blank(p.name), IdMessage(p.idNumber), PhoneRejected(p.phone))
  }

  predicate Valid(p: Profile)
  {
    NoErrors(Validate(p))
  }

  /** The form is valid exactly when the name is not blank, the ID has the
      national-ID format and the phone is empty or a mobile number once
      separators are removed. */
  lemma ValidIff(p: Profile)
    ensures Valid(p) <==>
              !Blank(p.name) && IdPattern(p.idNumber) &&
              (p.phone == "" || MobilePattern(StripSeparators(p.phone)))
  {
    NoErrorsIffNoKey(Validate(p));
  }

  /** The ID is checked untrimmed: surrounding spaces pass the "required"
      check but fail the format check. */
  lemma PaddedIdRejected(s: string)
    requires IdPattern(s)
    ensures !IdPattern(" " + s)
    ensures !Blank(" " + s)
    ensures Validate(Profile("n", " " + s, "", "", "", "", "", DefaultStatus))[IdNumber] == IdMalformed
  {
    IdPatternNotBlank(s);
    BlankIffAllWhitespace(s);
    BlankIffAllWhitespace(" " + s);
    var k :| 0 <= k < |s| && !IsWhitespace(s[k]);
    assert (" " + s)[k + 1] == s[k];
    assert !IsUpper((" " + s)[0]);
  }

  /** Digits are not separators, so a digit group strips to itself. */
  lemma DigitsKept(a: string)
    requires AllDigits(a)
    ensures StripSeparators(a) == a
  {
    assert forall i :: 0 <= i < |a| ==> !IsSeparator(a[i]) by {
      forall i | 0 <= i < |a| ensures !IsSeparator(a[i]) {
        assert IsDigit(a[i]);
      }
    }
    StripRemovesOnlySeparators(a);
  }

  /** A leading separator is dropped. */
  lemma SeparatorDropped(c: char, b: string)
    requires IsSeparator(c)
    ensures StripSeparators([c] + b) == StripSeparators(b)
  {
    assert ([c] + b)[0] == c;
    assert ([c] + b)[1..] == b;
  }

  /** A digit group followed by a dash: the digits stay, the dash goes. */
  lemma DigitsThenDash(a: string, b: string)
    requires AllDigits(a)
    ensures StripSeparators(a + (['-'] + b)) == a + StripSeparators(b)
  {
    StripConcat(a, ['-'] + b);
    DigitsKept(a);
    SeparatorDropped('-', b);
  }

  /** A number written as digit groups joined by dashes strips to the
      groups run together. */
  lemma DashedDigitsStrip(a: string, b: string, c: string)
    requires AllDigits(a) && AllDigits(b) && AllDigits(c)
    ensures StripSeparators(a + (['-'] + (b + (['-'] + c)))) == a + (b + c)
  {
    DigitsThenDash(a, b + (['-'] + c));
    DigitsThenDash(b, c);
    DigitsKept(c);
  }

  /** A mobile number written `09xx-xxx-xxx` is accepted. */
  lemma DashedMobileAccepted(a: string, b: string, c: string)
    requires |a| == 4 && a[0] == '0' && a[1] == '9' && |b| == 3 && |c| == 3
    requires AllDigits(a) && AllDigits(b) && AllDigits(c)
    ensures !PhoneRejected(a + (['-'] + (b + (['-'] + c))))
  {
    DashedDigitsStrip(a, b, c);
    var d := a + (b + c);
    assert forall i :: 2 <= i < |d| ==> IsDigit(d[i]) by {
      assert forall i :: 0 <= i < 4 ==> d[i] == a[i];
      assert forall i :: 4 <= i < 7 ==> d[i] == b[i - 4];
      assert forall i :: 7 <= i < 10 ==> d[i] == c[i - 7];
    }
    assert MobilePattern(d);
  }

  /** The seeded number '0912-345-678' is accepted. */
  lemma SeedPhoneAccepted()
    ensures !PhoneRejected("0912-345-678")
  {
    DashedMobileAccepted("0912", "345", "678");
    assert "0912" + (['-'] + ("345" + (['-'] + "678"))) == "0912-345-678";
  }

  /** The seeded number '0923-456-789' is accepted. */
  lemma SeedOtherPhoneAccepted()
    ensures !PhoneRejected("0923-456-789")
  {
    DashedMobileAccepted("0923", "456", "789");
    assert "0923" + (['-'] + ("456" + (['-'] + "789"))) == "0923-456-789";
  }

  /** The ID numbers of the repository's seed beneficiaries have the
      national-ID format. */
  lemma SeedIdsAccepted()
    ensures IdPattern("A123456789") && IdPattern("B234567890")
  {
    assert AllDigits("A123456789"[2..]);
    assert AllDigits("B234567890"[2..]);
  }

  /** The second person listed on the NGO dashboard carries 'B987654321',
      whose second character is neither 1 nor 2: opening that person in the
      form and saving reports the ID as malformed. */
  lemma DashboardSeedIdRejected(p: Profile)
    requires p.idNumber == "B987654321"
    ensures !IdPattern(p.idNumber)
    ensures !Valid(p)
    ensures Validate(p)[IdNumber] == IdMalformed
  {
    var s := p.idNumber;
    assert s[1] == '9';
    assert !IsWhitespace(s[0]);
    BlankIffAllWhitespace(s);
    NoErrorsIffNoKey(Validate(p));
  }

  /** The QR code a new record gets: `QR_` and the clock in milliseconds. */
  function FreshQrCode(nowMs: nat): string
  {
    "QR_" + NatToString(nowMs)
  }

  /** Different clock readings give different QR codes. */
  lemma FreshQrCodesDistinct(m: nat, n: nat)
    requires m != n
    ensures FreshQrCode(m) != FreshQrCode(n)
  {
    if FreshQrCode(m) == FreshQrCode(n) {
      assert NatToString(m) == FreshQrCode(m)[3..];
      NatToStringInjective(m, n);
    }
  }

  /** The record `handleSubmit` hands to `onSave`: the fields, plus the edited
      person's id, QR code, balance and creation time where those are truthy,
      else the clock, a fresh QR code, zero and the current time. */
  function Record(p: Profile, person: Option<Person>, nowMs: nat, nowIso: string): (r: Person)
    ensures r.profile == p
    ensures person.None? ==> r == Person(nowMs, p, 0, FreshQrCode(nowMs), nowIso)
    ensures person.Some? ==> r.balance == person.value.balance
    ensures person.Some? && person.value.id != 0 ==> r.id == person.value.id
    ensures person.Some? && person.value.qrCode != "" ==> r.qrCode == person.value.qrCode
    ensures person.Some? && person.value.createdAt != "" ==> r.createdAt == person.value.createdAt
  {
    var id := if person.Some? && person.value.id != 0 then person.value.id else nowMs;
    var qr := if person.Some? && person.value.qrCode != "" then person.value.qrCode else FreshQrCode(nowMs);
    var balance := if person.Some? && person.value.balance != 0 then person.value.balance else 0;
    var created := if person.Some? && person.value.createdAt != "" then person.value.createdAt else nowIso;
    Person(id, p, balance, qr, created)
  }

  datatype Submitted = Submitted(editor: Editor<Profile, Field>, saved: Option<Person>)

  /** `handleSubmit`: the errors are replaced by a fresh validation, and
      `onSave` receives the record only when there are none. */
  function Submit(ed: Editor<Profile, Field>, person: Option<Person>, nowMs: nat, nowIso: string): (r: Submitted)
    ensures r.editor == Editor(ed.draft, Validate(ed.draft))
    ensures r.saved.Some? <==> Valid(ed.draft)
    ensures r.saved.Some? ==> r.saved.value == Record(ed.draft, person, nowMs, nowIso)
  {
    Submitted(Editor(ed.draft, Validate(ed.draft)),
              if Valid(ed.draft) then Some(Record(ed.draft, person, nowMs, nowIso)) else None)
  }

  /** Editing a person with an id, QR code and creation time and saving
      without changes gives the person back. */
  lemma ResaveIsIdentity(q: Person, nowMs: nat, nowIso: string)
    requires q.id != 0 && q.qrCode != "" && q.createdAt != "" && q.profile.status != ""
    ensures Record(Load(Some(q)), Some(q), nowMs, nowIso) == q
  {
  }
}

=== FILE: jwt_config.dfy ===
/** The token and cookie settings (`jwtConfig`) of the Express server
    (server/config/jwt.js) and of the serverless handlers (lib/config/jwt.js).
    Both read the process environment; here the environment is a parameter. */
module JwtConfig {
  import opened Common

  /** The environment variables the configuration reads; `None` is an unset variable. */
  datatype Env = Env(
    jwtSecret: Option<string>,
    jwtRefreshSecret: Option<string>,
    jwtAccessExpiry: Option<string>,
    jwtRefreshExpiry: Option<string>,
    nodeEnv: Option<string>)

  const EmptyEnv := Env(None, None, None, None, None)

  /** `process.env.NODE_ENV === 'production'`. */
  predicate Production(env: Env)
  {
    env.nodeEnv == Some("production")
  }

  /** `process.env.X || fallback`: an unset or empty variable yields the fallback. */
  function OrDefault(v: Option<string>, fallback: string): (r: string)
    ensures fallback != "" ==> r != ""
    ensures v.Some? && v.value != "" ==> r == v.value
  {
    match v
    case Some(s) => if s != "" then s else fallback
    case None => fallback
  }

  datatype CookieOptions = CookieOptions(httpOnly: bool, secure: bool, sameSite: string, maxAgeMs: int)

  datatype Config = Config(
    secret: string,
    refreshSecret: string,
    accessExpiry: string,
    refreshExpiry: string,
    cookieOptions: CookieOptions)

  /** Seven days in milliseconds, the refresh cookie lifetime. */
  const SevenDaysMs: int := 7 * 24 * 60 * 60 * 1000

  /** The shape both configuration files share, given their fallback values. */
  function FromEnv(env: Env, secret: string, refreshSecret: string, accessExpiry: string, refreshExpiry: string): Config
  {
    Config(
      OrDefault(env.jwtSecret, secret),
      OrDefault(env.jwtRefreshSecret, refreshSecret),
      OrDefault(env.jwtAccessExpiry, accessExpiry),
      OrDefault(env.jwtRefreshExpiry, refreshExpiry),
      CookieOptions(true, Production(env), "lax", SevenDaysMs))
  }

  /** server/config/jwt.js. */
  function ServerConfig(env: Env): (c: Config)
    ensures c.secret != "" && c.refreshSecret != ""
    ensures c.cookieOptions.httpOnly && c.cookieOptions.sameSite == "lax"
    ensures c.cookieOptions.secure <==> Production(env)
    ensures c.cookieOptions.maxAgeMs == 604800000
    ensures env.jwtSecret == None && env.jwtRefreshSecret == None ==> c.secret != c.refreshSecret
    ensures env.jwtAccessExpiry == None ==> c.accessExpiry == "15m"
    ensures env.jwtRefreshExpiry == None ==> c.refreshExpiry == "7d"
  {
    FromEnv(env, "default-secret-key", "default-refresh-secret-key", "15m", "7d")
  }

  /** lib/config/jwt.js: the same shape with placeholder fallbacks. */
  function LibConfig(env: Env): (c: Config)
    ensures c.secret != "" && c.refreshSecret != ""
    ensures c.cookieOptions.httpOnly && c.cookieOptions.sameSite == "lax"
    ensures c.cookieOptions.secure <==> Production(env)
    ensures c.cookieOptions.maxAgeMs == 604800000
    ensures env.jwtSecret == None && env.jwtRefreshSecret == None ==> c.secret != c.refreshSecret
  {
    FromEnv(env, "@JWT_SECRET", "@JWT_REFRESH_SECRET", "@JWT_ACCESS_EXPIRY", "@JWT_REFRESH_EXPIRYS")
  }

  /** The two files differ only in their fallbacks: whenever every variable is
      set (and non-empty), they produce the same configuration. */
  lemma ConfigsAgreeWhenEnvSet(env: Env)
    requires env.jwtSecret.Some? && env.jwtSecret.value != ""
    requires env.jwtRefreshSecret.Some? && env.jwtRefreshSecret.value != ""
    requires env.jwtAccessExpiry.Some? && env.jwtAccessExpiry.value != ""
    requires env.jwtRefreshExpiry.Some? && env.jwtRefreshExpiry.value != ""
    ensures ServerConfig(env) == LibConfig(env)
  {
  }
}

=== FILE: ledger.dfy ===
/** The voucher ledger of server/routes/transaction.js and its serverless twin
    api/transaction.js. The state is the beneficiary repository and the
    append-only transaction log; a debit is one atomic step from a state to a
    response and a new state. */
module Ledger {
  import opened Common
  import opened Cookies
  import opened Users
  import opened Http
  import opened AuthGuard

  const Completed := "completed"

  const IncompleteDebitMessage := "請提供完整的交易資訊"
  const UnknownBeneficiaryMessage := "找不到街友資訊"
  const InsufficientMessage := "餘額不足"
  const DebitOkMessage := "交易成功"

  /** One logged debit. `storeQrCode` and `productName` are copied from the
      request as they came, possibly absent. */
  datatype TxRecord = TxRecord(
    id: int,
    homelessQrCode: string,
    storeQrCode: Option<string>,
    amount: int,
    productName: Option<string>,
    timestamp: string,
    status: string)

  /** The body `{ homelessQrCode, storeQrCode, amount, productName }`. */
  datatype DebitRequest = DebitRequest(
    homelessQrCode: Option<string>,
    storeQrCode: Option<string>,
    amount: Option<int>,
    productName: Option<string>)

  datatype World = World(beneficiaries: seq<Beneficiary>, log: seq<TxRecord>)

  /** The `data` of a ledger answer: a receipt for a debit, or log records. */
  datatype Payload = Receipt(transaction: TxRecord, newBalance: int) | Records(records: seq<TxRecord>)

  datatype Outcome = Outcome(response: Response<Payload>, world: World)

  /** The input check `!homelessQrCode || !amount || amount <= 0`, negated. */
  predicate WellFormedDebit(req: DebitRequest)
  {
    Supplied(req.homelessQrCode) && req.amount.Some? && req.amount.value > 0
  }

  /** The beneficiary a well-formed debit draws on, if any. */
  function Payer(req: DebitRequest, w: World): Option<Beneficiary>
    requires WellFormedDebit(req)
  {
    FindBeneficiaryByQrCode(w.beneficiaries, req.homelessQrCode.value)
  }

  /** Whether a debit is accepted: well formed, payer known, balance sufficient. */
  predicate Accepted(req: DebitRequest, w: World)
  {
    WellFormedDebit(req) && Payer(req, w).Some? && req.amount.value <= Payer(req, w).value.balance
  }

  /** The record an accepted debit appends. */
  function RecordOf(req: DebitRequest, id: int, timestamp: string): TxRecord
    requires WellFormedDebit(req)
  {
    TxRecord(id, req.homelessQrCode.value, req.storeQrCode, req.amount.value, req.productName, timestamp, Completed)
  }

  /** The debit handler, given the id and timestamp of the record it would
      append. Rejections come in the source's order and change nothing. */
  function Debit(req: DebitRequest, w: World, id: int, timestamp: string): (o: Outcome)
    ensures !WellFormedDebit(req) ==> o == Outcome(Failure(400, IncompleteDebitMessage), w)
    ensures WellFormedDebit(req) && Payer(req, w).None? ==> o == Outcome(Failure(404, UnknownBeneficiaryMessage), w)
    ensures WellFormedDebit(req) && Payer(req, w).Some? && Payer(req, w).value.balance < req.amount.value ==>
              o == Outcome(Failure(400, InsufficientMessage), w)
    ensures o.response.success <==> Accepted(req, w)
    ensures !o.response.success ==> o.world == w
    ensures o.response.success ==>
              var b := Payer(req, w).value;
              var rec := RecordOf(req, id, timestamp);
              && o.response.status == 200
              && o.world.log == w.log + [rec]
              && rec.status == Completed && rec.id == id && rec.amount == req.amount.value
              && o.world.beneficiaries == UpdateBalance(w.beneficiaries, b.id, b.balance - rec.amount).beneficiaries
              && o.response.body == Some(Receipt(rec, b.balance - rec.amount))
              && 0 <= b.balance - rec.amount < b.balance
  {
    if !WellFormedDebit(req) then Outcome(Failure(400, IncompleteDebitMessage), w)
    else
      match FindBeneficiaryByQrCode(w.beneficiaries, req.homelessQrCode.value)
      case None => Outcome(Failure(404, UnknownBeneficiaryMessage), w)
      case Some(b) =>
        if b.balance < req.amount.value then Outcome(Failure(400, InsufficientMessage), w)
        else
          var newBalance := b.balance - req.amount.value;
          var rec := RecordOf(req, id, timestamp);
          Outcome(Success(Some(DebitOkMessage), Some(Receipt(rec, newBalance)), []),
                  World(UpdateBalance(w.beneficiaries, b.id, newBalance).beneficiaries, w.log + [rec]))
  }

  /** A debit for exactly the whole balance is accepted and leaves zero. */
  lemma WholeBalanceAccepted(req: DebitRequest, w: World, id: int, timestamp: string)
    requires WellFormedDebit(req) && Payer(req, w).Some?
    requires req.amount.value == Payer(req, w).value.balance
    ensures Debit(req, w, id, timestamp).response.success
    ensures Debit(req, w, id, timestamp).response.body.value.newBalance == 0
  {
  }

  /** The sum of all balances. */
  function TotalBalance(bs: seq<Beneficiary>): int
  {
    if |bs| == 0 then 0 else bs[0].balance + TotalBalance(bs[1..])
  }

  /** The sum of all logged amounts. */
  function LoggedAmount(log: seq<TxRecord>): int
  {
    if |log| == 0 then 0 else log[0].amount + LoggedAmount(log[1..])
  }

  lemma {:induction false} TotalBalancePointUpdate(bs: seq<Beneficiary>, i: int, b: Beneficiary)
    requires 0 <= i < |bs|
    ensures TotalBalance(bs[i := b]) == TotalBalance(bs) - bs[i].balance + b.balance
  {
    if i == 0 {
      assert bs[i := b][1..] == bs[1..];
    } else {
      assert bs[i := b][1..] == bs[1..][i - 1 := b];
      TotalBalancePointUpdate(bs[1..], i - 1, b);
    }
  }

  lemma {:induction false} LoggedAmountAppend(log: seq<TxRecord>, t: TxRecord)
    ensures LoggedAmount(log + [t]) == LoggedAmount(log) + t.amount
  {
    if |log| == 0 {
      assert log + [t] == [t];
      assert [t][1..] == [];
    } else {
      assert (log + [t])[1..] == log[1..] + [t];
      LoggedAmountAppend(log[1..], t);
    }
  }

  /** With unique beneficiary ids, a debit drawn on the first beneficiary
      carrying the QR code charges exactly that beneficiary: its balance drops
      by the amount to the reported new balance and no other record changes.
      With duplicate ids the update by id could hit an earlier record than the
      one found by QR code. */
  lemma DebitChargesPayer(req: DebitRequest, w: World, id: int, timestamp: string, i: int)
    requires WellFormedBeneficiaries(w.beneficiaries)
    requires WellFormedDebit(req)
    requires 0 <= i < |w.beneficiaries| && w.beneficiaries[i].qrCode == req.homelessQrCode.value
    requires forall j :: 0 <= j < i ==> w.beneficiaries[j].qrCode != req.homelessQrCode.value
    requires req.amount.value <= w.beneficiaries[i].balance
    ensures var bs := w.beneficiaries;
            var o := Debit(req, w, id, timestamp);
            && o.response.success
            && o.world.beneficiaries == bs[i := bs[i].(balance := bs[i].balance - req.amount.value)]
            && o.response.body.value.newBalance == bs[i].balance - req.amount.value
  {
    var bs := w.beneficiaries;
    FindBeneficiaryAt(bs, req.homelessQrCode.value, i);
    UpdateBalanceUnique(bs, i, bs[i].balance - req.amount.value);
  }

  /** Updating the balance of the beneficiary found by QR code changes the
      total by exactly the difference. */
  lemma UpdateFoundTotal(bs: seq<Beneficiary>, qrCode: string, newBalance: int)
    requires Distinct(bs, (b: Beneficiary) => b.id)
    requires FindBeneficiaryByQrCode(bs, qrCode).Some?
    ensures var b := FindBeneficiaryByQrCode(bs, qrCode).value;
            TotalBalance(UpdateBalance(bs, b.id, newBalance).beneficiaries) == TotalBalance(bs) - b.balance + newBalance
  {
    var b := FindBeneficiaryByQrCode(bs, qrCode).value;
    UpdateFoundBeneficiary(bs, qrCode, newBalance);
    var i :| 0 <= i < |bs| && bs[i] == b &&
             UpdateBalance(bs, b.id, newBalance).beneficiaries == bs[i := b.(balance := newBalance)];
    TotalBalancePointUpdate(bs, i, b.(balance := newBalance));
  }

  /** Every debit, accepted or not, keeps the repository invariants: no
      balance goes negative and ids stay unique. */
  lemma DebitKeepsWellFormed(req: DebitRequest, w: World, id: int, timestamp: string)
    requires WellFormedBeneficiaries(w.beneficiaries)
    ensures WellFormedBeneficiaries(Debit(req, w, id, timestamp).world.beneficiaries)
  {
    if Accepted(req, w) {
      var b := Payer(req, w).value;
      UpdateBalancePreservesWellFormed(w.beneficiaries, b.id, b.balance - req.amount.value);
    }
  }

  /** The points in a state: those still on balances plus those logged as spent. */
  function Points(w: World): int
  {
    TotalBalance(w.beneficiaries) + LoggedAmount(w.log)
  }

  /** Moving an amount from the payer's balance into a new log record keeps
      the points of the state. */
  lemma ChargeConserves(w: World, qrCode: string, rec: TxRecord)
    requires Distinct(w.beneficiaries, (b: Beneficiary) => b.id)
    requires FindBeneficiaryByQrCode(w.beneficiaries, qrCode).Some?
    ensures var b := FindBeneficiaryByQrCode(w.beneficiaries, qrCode).value;
            Points(World(UpdateBalance(w.beneficiaries, b.id, b.balance - rec.amount).beneficiaries, w.log + [rec])) ==
            Points(w)
  {
    var b := FindBeneficiaryByQrCode(w.beneficiaries, qrCode).value;
    UpdateFoundTotal(w.beneficiaries, qrCode, b.balance - rec.amount);
    LoggedAmountAppend(w.log, rec);
  }

  /** Points are conserved: what leaves the balances is exactly what the log
      records. */
  lemma DebitConserves(req: DebitRequest, w: World, id: int, timestamp: string)
    requires WellFormedBeneficiaries(w.beneficiaries)
    ensures Points(Debit(req, w, id, timestamp).world) == Points(w)
  {
    if Accepted(req, w) {
      ChargeConserves(w, req.homelessQrCode.value, RecordOf(req, id, timestamp));
    }
  }

  /** Log ids are 1, 2, ..., n in order. */
  predicate SequentialIds(log: seq<TxRecord>)
  {
    forall i :: 0 <= i < |log| ==> log[i].id == i + 1
  }

  lemma SequentialIdsDistinct(log: seq<TxRecord>)
    requires SequentialIds(log)
    ensures Distinct(log, (t: TxRecord) => t.id)
  {
  }

  /** POST / of the Express router: the new record's id is the log length plus one. */
  function ServerDebit(req: DebitRequest, w: World, timestamp: string): (o: Outcome)
    ensures o.response.success ==> |o.world.log| == |w.log| + 1 && o.world.log[|w.log|].id == |w.log| + 1
    ensures SequentialIds(w.log) ==> SequentialIds(o.world.log)
    ensures w.log <= o.world.log
  {
    Debit(req, w, |w.log| + 1, timestamp)
  }

  /** The state the ledger is meant to keep: repository invariants and
      sequential log ids. */
  predicate LedgerInvariant(w: World)
  {
    WellFormedBeneficiaries(w.beneficiaries) && SequentialIds(w.log)
  }

  /** A request and the clock reading it was served at. */
  datatype Call = Call(req: DebitRequest, timestamp: string)

  /** Serving debits one after another, each as one atomic step. */
  function ServeAll(w: World, calls: seq<Call>): World
    decreases |calls|
  {
    if |calls| == 0 then w
    else ServeAll(ServerDebit(calls[0].req, w, calls[0].timestamp).world, calls[1..])
  }

  /** Over any run of debits from a state satisfying the invariant: the
      invariant holds (no balance goes negative, ids stay unique and
      sequential), the log only grows, and points are conserved. */
  lemma {:induction false} ServeAllKeepsInvariant(w: World, calls: seq<Call>)
    requires LedgerInvariant(w)
    ensures LedgerInvariant(ServeAll(w, calls))
    ensures w.log <= ServeAll(w, calls).log
    ensures Points(ServeAll(w, calls)) == Points(w)
    decreases |calls|
  {
    if |calls| > 0 {
      var c := calls[0];
      var o := ServerDebit(c.req, w, c.timestamp);
      DebitKeepsWellFormed(c.req, w, |w.log| + 1, c.timestamp);
      DebitConserves(c.req, w, |w.log| + 1, c.timestamp);
      ServeAllKeepsInvariant(o.world, calls[1..]);
    }
  }

  /** The seed state with an empty log satisfies the invariant. */
  lemma SeedLedgerInvariant()
    ensures LedgerInvariant(World(SeedBeneficiaries, []))
  {
    SeedBeneficiariesWellFormed();
  }

  /** Whether a record involves a QR code, as beneficiary or as store. */
  predicate Involves(t: TxRecord, qrCode: string)
  {
    t.homelessQrCode == qrCode || t.storeQrCode == Some(qrCode)
  }

  /** The `?qrCode=` query over the log: the whole log without a code, else
      the records involving it. */
  function LogQuery(log: seq<TxRecord>, qrCode: Option<string>): (r: seq<TxRecord>)
    ensures !Supplied(qrCode) ==> r == log
    ensures Supplied(qrCode) ==> forall t :: t in r <==> t in log && Involves(t, qrCode.value)
    ensures |r| <= |log|
  {
    if Supplied(qrCode) then
      var r := Filter(log, (t: TxRecord) => Involves(t, qrCode.value));
      assert forall t :: t in r ==> t in log && Involves(t, qrCode.value) by {
        forall t | t in r ensures t in log && Involves(t, qrCode.value) {
          var k :| 0 <= k < |r| && r[k] == t;
        }
      }
      assert forall t :: t in log && Involves(t, qrCode.value) ==> t in r by {
        forall t | t in log && Involves(t, qrCode.value) ensures t in r {
          var k :| 0 <= k < |log| && log[k] == t;
        }
      }
      r
    else log
  }

  /** The query answer grows with the log in log order: after an append the
      old answer is kept and the new record follows it iff it involves the code. */
  lemma QueryAfterAppend(log: seq<TxRecord>, t: TxRecord, qrCode: Option<string>)
    ensures LogQuery(log + [t], qrCode) ==
            LogQuery(log, qrCode) + (if !Supplied(qrCode) || Involves(t, qrCode.value) then [t] else [])
  {
    if Supplied(qrCode) {
      var p := (x: TxRecord) => Involves(x, qrCode.value);
      FilterConcat(log, [t], p);
      assert [t][1..] == [];
    }
  }

  /** GET / of the Express router, behind `authenticateToken`. */
  function ServerListTransactions(jar: Jar, users: seq<User>, key: string, now: int, w: World,
                                  qrCode: Option<string>): (r: Response<Payload>)
    ensures r.success <==> AuthenticateToken(jar, users, key, now).Proceed?
    ensures r.success ==> r.body == Some(Records(LogQuery(w.log, qrCode)))
    ensures !r.success ==> r == HaltResponse(AuthenticateToken(jar, users, key, now))
  {
    match AuthenticateToken(jar, users, key, now)
    case Proceed(_) => Success(None, Some(Records(LogQuery(w.log, qrCode))), [])
    case g => HaltResponse(g)
  }

  /** api/transaction.js: POST debits with the clock in milliseconds as the
      record id, GET lists without any guard, other verbs are refused. */
  function ApiTransaction(verb: string, req: DebitRequest, qrCode: Option<string>, w: World,
                          nowMs: int, timestamp: string): (o: Outcome)
    ensures verb == "POST" ==> o == Debit(req, w, nowMs, timestamp)
    ensures verb != "POST" ==> o.world == w
    ensures verb == "GET" ==> o.response == Success(None, Some(Records(LogQuery(w.log, qrCode))), [])
    ensures verb != "POST" && verb != "GET" ==> o.response == Failure(405, MethodNotAllowed)
  {
    if verb == "POST" then Debit(req, w, nowMs, timestamp)
    else if verb == "GET" then Outcome(Success(None, Some(Records(LogQuery(w.log, qrCode))), []), w)
    else Outcome(Failure(405, MethodNotAllowed), w)
  }

  /** Both implementations debit alike; only the new record's id differs. */
  lemma ApiDebitMatchesServer(req: DebitRequest, w: World, qrCode: Option<string>, nowMs: int, timestamp: string)
    ensures var a := ApiTransaction("POST", req, qrCode, w, nowMs, timestamp);
            var s := ServerDebit(req, w, timestamp);
            && a.response.status == s.response.status
            && a.response.message == s.response.message
            && a.world.beneficiaries == s.world.beneficiaries
            && |a.world.log| == |s.world.log|
            && (forall i :: 0 <= i < |s.world.log| ==> a.world.log[i] == s.world.log[i].(id := a.world.log[i].id))
            && (a.response.success ==> a.world.log[|w.log|].id == nowMs)
  {
  }

  /** The unguarded api listing answers what the guarded server listing
      answers to an authenticated caller. */
  lemma ApiListingMatchesServer(jar: Jar, users: seq<User>, key: string, now: int, w: World,
                                req: DebitRequest, qrCode: Option<string>, nowMs: int, timestamp: string)
    requires AuthenticateToken(jar, users, key, now).Proceed?
    ensures ApiTransaction("GET", req, qrCode, w, nowMs, timestamp).response ==
            ServerListTransactions(jar, users, key, now, w, qrCode)
  {
  }
}

=== FILE: login_form.dfy ===
/** The sign-in form of src/pages/Login.jsx: its validator, the submit gate,
    per-field edits and the quick-login shortcuts. */
module LoginForm {
  import opened Common
  import opened Text
  import opened UserRoles
  import opened FormState
  import Sessions

  datatype Field = Username | Password | RoleField

  datatype Draft = Draft(username: string, password: string, role: string)

  const EmptyDraft := Draft("", "", "")

  const UsernameRequired := "請輸入使用者名稱"
  const PasswordRequired := "請輸入密碼"
  const PasswordTooShort := "密碼至少需要 6 個字元"
  const RoleRequired := "請選擇角色"

  const MinPasswordLength := 6
  const DemoPassword := "demo123"

  function Get(d: Draft, f: Field): string
  {
    match f
    case Username => d.username
    case Password => d.password
    case RoleField => d.role
  }

  /** `setFormData({ ...formData, [name]: value })`. */
  function Set(d: Draft, f: Field, v: string): (r: Draft)
    ensures Get(r, f) == v
    ensures forall g :: g != f ==> Get(r, g) == Get(d, g)
  {
    match f
    case Username => d.(username := v)
    case Password => d.(password := v)
    case RoleField => d.(role := v)
  }

  /** `validateForm`: the errors it records. */
  function Validate(d: Draft): (errors: map<Field, string>)
    ensures Username in errors <==> Blank(d.username)
    ensures Password in errors <==> Utf16Length(d.password) < MinPasswordLength
    ensures RoleField in errors <==> d.role == ""
    ensures Username in errors ==> errors[Username] == UsernameRequired
    ensures Password in errors ==>
              errors[Password] == if d.password == "" then PasswordRequired else PasswordTooShort
    ensures RoleField in errors ==> errors[RoleField] == RoleRequired
    ensures forall f :: f in errors ==> errors[f] != ""
  {
    var e1 := if Blank(d.username) then map[Username := UsernameRequired] else map[];
    var e2 := if d.password == "" then e1[Password := PasswordRequired]
              else if Utf16Length(d.password) < MinPasswordLength then e1[Password := PasswordTooShort]
              else e1;
    if d.role == "" then e2[RoleField := RoleRequired] else e2
  }

  predicate Valid(d: Draft)
  {
    NoErrors(Validate(d))
  }

  /** The form is valid exactly when the username is not blank, the password
      has at least six UTF-16 code units and a role is chosen. */
  lemma ValidIff(d: Draft)
    ensures Valid(d) <==> !Blank(d.username) && Utf16Length(d.password) >= MinPasswordLength && d.role != ""
  {
    NoErrorsIffNoKey(Validate(d));
  }

  /** The length is counted in UTF-16 code units: three astral characters
      make a password long enough, three other characters do not. */
  lemma AstralPasswordLength(a: char, b: char, c: char)
    requires Astral(a) && Astral(b) && Astral(c)
    ensures Password !in Validate(Draft("", [a, b, c], ""))
    ensures Password in Validate(Draft("", "abc", ""))
  {
    assert Utf16Length([c]) == 2;
    assert [b, c][1..] == [c];
    assert Utf16Length([b, c]) == 4;
    assert [a, b, c][1..] == [b, c];
    assert Utf16Length([a, b, c]) == 6;
  }

  /** The two password messages never appear together: an empty password is
      reported as missing, not as too short. */
  lemma PasswordMessagesExclusive(d: Draft)
    ensures Password in Validate(d) ==>
              (Validate(d)[Password] == PasswordRequired <==> d.password == "")
  {
  }

  datatype Submitted = Submitted(editor: Editor<Draft, Field>, sent: Option<Draft>)

  /** `handleSubmit`: the errors are replaced by a fresh validation, and
      `onLogin` receives the fields only when there are none. */
  function Submit(ed: Editor<Draft, Field>): (r: Submitted)
    ensures r.editor == Editor(ed.draft, Validate(ed.draft))
    ensures r.sent.Some? <==> Valid(ed.draft)
    ensures r.sent.Some? ==> r.sent.value == ed.draft
  {
    Submitted(Editor(ed.draft, Validate(ed.draft)), if Valid(ed.draft) then Some(ed.draft) else None)
  }

  /** `quickLogin(role, username)`: fills in a demo account. */
  function QuickLogin(role: Role, username: string): (d: Draft)
    ensures ParseRole(d.role) == Some(role)
    ensures d.password == DemoPassword && d.username == username
  {
    ParseRoleValue(role);
    Draft(username, DemoPassword, RoleValue(role))
  }

  /** Every quick-login shortcut yields a form that passes validation. */
  lemma QuickLoginValid(role: Role, username: string)
    requires !Blank(username)
    ensures Valid(QuickLogin(role, username))
  {
    ValidIff(QuickLogin(role, username));
    assert RoleValue(role) != "" by {
      DisplayNamesDistinct(role, role);
    }
  }

  /** The shortcut buttons use the names 'demo' and '張小明'; both are not blank. */
  lemma QuickLoginButtonsValid(role: Role)
    ensures Valid(QuickLogin(role, "demo"))
    ensures Valid(QuickLogin(role, "張小明"))
  {
    assert !IsWhitespace("demo"[0]);
    assert !IsWhitespace("張小明"[0]);
    BlankIffAllWhitespace("demo");
    BlankIffAllWhitespace("張小明");
    QuickLoginValid(role, "demo");
    QuickLoginValid(role, "張小明");
  }

  /** The login body the fields become. */
  function ToRequest(d: Draft): Sessions.LoginRequest
  {
    Sessions.LoginRequest(Some(d.username), Some(d.password), Some(d.role))
  }

  /** A form that passes validation never draws the server's 400 for a
      missing field. */
  lemma ValidFormIsComplete(d: Draft)
    requires Valid(d)
    ensures Sessions.Complete(ToRequest(d))
  {
    ValidIff(d);
    BlankIffAllWhitespace(d.username);
  }
}

=== FILE: ngo_dashboard.dfy ===
/** The beneficiary list of src/pages/NGOAdmin/Dashboard.jsx
    (`HomelessManagement`): the search box, saving from the beneficiary form,
    QR-code reissue and the status labels. The list lives in component state;
    nothing here reaches the server. */
module NgoDashboard {
  import opened Common
  import opened Text
  import opened HomelessForm

  /** The component's state: the list, the search term, whether the form is
      open and which person it edits. */
  datatype Management = Management(people: seq<Person>, searchTerm: string, showForm: bool, editing: Option<Person>)

  /** A person matches an already lowered term when it occurs in the
      lowered name or the lowered ID number. */
  predicate Keeps(x: Person, loweredTerm: string)
  {
    Includes(Lower(x.profile.name), loweredTerm) || Includes(Lower(x.profile.idNumber), loweredTerm)
  }

  /** `filteredList`: the people whose name or ID number contains the term,
      ignoring ASCII case, in list order. */
  function Search(people: seq<Person>, term: string): (r: seq<Person>)
    ensures |r| <= |people|
    ensures forall x :: x in r <==> x in people && Keeps(x, Lower(term))
  {
    var t := Lower(term);
    Filter(people, x => Keeps(x, t))
  }

  /** The search keeps list order: a person added at the end shows up at the
      end of the results, or not at all. */
  lemma SearchAppend(people: seq<Person>, x: Person, term: string)
    ensures Search(people + [x], term) == Search(people, term) + (if Keeps(x, Lower(term)) then [x] else [])
  {
    var t := Lower(term);
    FilterConcat(people, [x], y => Keeps(y, t));
  }

  /** An empty search box shows everybody. */
  lemma SearchEmptyKeepsAll(people: seq<Person>)
    ensures Search(people, "") == people
  {
    assert Lower("") == "";
    forall x | x in people
      ensures Keeps(x, "")
    {
      IncludesEmpty(Lower(x.profile.name));
    }
  }

  /** Typing the term in upper or lower case gives the same results. */
  lemma SearchIgnoresCase(people: seq<Person>, term: string)
    ensures Search(people, Lower(term)) == Search(people, term)
  {
    LowerIdempotent(term);
  }

  /** `handleEdit`: open the form on a person. */
  function HandleEdit(m: Management, q: Person): Management
  {
    m.(showForm := true, editing := Some(q))
  }

  /** `handleCancel`: close the form. */
  function HandleCancel(m: Management): Management
  {
    m.(showForm := false, editing := None)
  }

  /** `handleSave`: while editing, every person with the edited id becomes
      the saved record; otherwise the record is appended. The form closes. */
  function HandleSave(m: Management, saved: Person): (r: Management)
    ensures !r.showForm && r.editing.None? && r.searchTerm == m.searchTerm
    ensures m.editing.None? ==> r.people == m.people + [saved]
    ensures m.editing.Some? ==> |r.people| == |m.people|
    ensures m.editing.Some? ==>
              forall i :: 0 <= i < |m.people| ==>
                r.people[i] == if m.people[i].id == m.editing.value.id then saved else m.people[i]
  {
    var people := match m.editing
      case None => m.people + [saved]
      case Some(q) => ReplaceWhere(m.people, (x: Person) => x.id == q.id, saved);
    Management(people, m.searchTerm, false, None)
  }

  /** Opening a person whose id is unique in the list and saving the form
      untouched leaves the list as it was. */
  lemma EditSaveRoundTrip(m: Management, k: int, nowMs: nat, nowIso: string)
    requires Distinct(m.people, (x: Person) => x.id)
    requires 0 <= k < |m.people|
    requires var q := m.people[k]; q.id != 0 && q.qrCode != "" && q.createdAt != "" && q.profile.status != ""
    ensures var q := m.people[k];
            HandleSave(HandleEdit(m, q), Record(Load(Some(q)), Some(q), nowMs, nowIso)).people == m.people
  {
    var q := m.people[k];
    ResaveIsIdentity(q, nowMs, nowIso);
    var r := HandleSave(HandleEdit(m, q), q).people;
    assert forall i :: 0 <= i < |m.people| && i != k ==> m.people[i].id != q.id;
    assert forall i :: 0 <= i < |m.people| ==> r[i] == m.people[i];
  }

  /** `handleReissueQR`: every person with the target's id gets the QR code
      made from the clock; nothing else about anybody changes. */
  function Reissue(people: seq<Person>, target: Person, nowMs: nat): (r: seq<Person>)
    ensures |r| == |people|
    ensures forall i :: 0 <= i < |people| ==>
              r[i] == people[i].(qrCode := r[i].qrCode)
    ensures forall i :: 0 <= i < |people| ==>
              r[i].qrCode == if people[i].id == target.id then FreshQrCode(nowMs) else people[i].qrCode
  {
    UpdateWhere(people, (x: Person) => x.id == target.id, (x: Person) => x.(qrCode := FreshQrCode(nowMs)))
  }

  /** A reissue does not change who the search finds: searching the updated
      list is updating the search results. */
  lemma ReissueCommutesWithSearch(people: seq<Person>, target: Person, nowMs: nat, term: string)
    ensures Search(Reissue(people, target, nowMs), term) == Reissue(Search(people, term), target, nowMs)
  {
    var t := Lower(term);
    FilterUpdateWhere(people, x => Keeps(x, t), (x: Person) => x.id == target.id,
                      (x: Person) => x.(qrCode := FreshQrCode(nowMs)));
  }

  /** Two reissues at different times give the person different codes. */
  lemma ReissueChangesCode(people: seq<Person>, target: Person, m: nat, n: nat, i: int)
    requires m != n && 0 <= i < |people| && people[i].id == target.id
    ensures Reissue(people, target, m)[i].qrCode != Reissue(people, target, n)[i].qrCode
  {
    FreshQrCodesDistinct(m, n);
  }

  const KnownStatuses := ["active", "inactive", "suspended"]

  /** `getStatusText`: the label of a known status; any other status is shown
      as it is. */
  function StatusText(status: string): (r: string)
    ensures status == "active" ==> r == "啟用"
    ensures status == "inactive" ==> r == "停用"
    ensures status == "suspended" ==> r == "暫停"
    ensures r == status <==> status !in KnownStatuses
  {
    match status
    case "active" => "啟用"
    case "inactive" => "停用"
    case "suspended" => "暫停"
    case _ => status
  }

  /** Different known statuses get different labels, and no label is itself
      a known status. */
  lemma StatusTextDistinct(a: string, b: string)
    requires a in KnownStatuses && b in KnownStatuses
    ensures StatusText(a) == StatusText(b) <==> a == b
    ensures StatusText(a) !in KnownStatuses
  {
  }
}

=== FILE: product_form.dfy ===
/** The product form of src/components/Forms/ProductForm.jsx: its validator,
    the submit gate with the record it builds, and per-field edits. The points
    box is a number input; its value is either empty or a whole number, which
    `Option<int>` captures with `None` for the empty box. */
module ProductForm {
  import opened Common
  import opened Text
  import opened FormState

  datatype Field = Name | Points | Category | Description | Status

  /** The fields the form edits, and the attached image, if any. */
  datatype Draft = Draft(
    name: string,
    points: Option<int>,
    category: string,
    description: string,
    status: string,
    image: Option<string>)

  const DefaultStatus := "active"
  const BlankDraft := Draft("", None, "", "", DefaultStatus, None)

  /** A product as the store dashboard lists it. */
  datatype Product = Product(
    id: int,
    name: string,
    points: int,
    category: string,
    description: string,
    status: string,
    image: Option<string>,
    createdAt: string)

  const NameRequired := "請輸入商品名稱"
  const PointsInvalid := "請輸入有效的點數"
  const CategoryRequired := "請選擇分類"

  /** The fields the form opens with: the product's, where truthy, else the
      blank defaults (`points || ''` turns 0 points into an empty box). */
  function Load(product: Option<Product>): (d: Draft)
    ensures product.None? ==> d == BlankDraft
    ensures product.Some? ==>
              && d.name == product.value.name
              && d.category == product.value.category
              && d.description == product.value.description
              && d.image == product.value.image
              && (d.points.Some? <==> product.value.points != 0)
              && (d.points.Some? ==> d.points.value == product.value.points)
    ensures d.status != ""
    ensures product.Some? && product.value.status != "" ==> d.status == product.value.status
  {
    match product
    case None => BlankDraft
    case Some(q) =>
      Draft(q.name, if q.points != 0 then Some(q.points) else None, q.category, q.description,
            if q.status != "" then q.status else DefaultStatus, q.image)
  }

  /** The points check: an empty box, or a number that is not positive. */
  predicate PointsRejected(points: Option<int>)
  {
    points.None? || points.value <= 0
  }

  /** `validateForm`: the errors it records. */
  function Validate(d: Draft): (errors: map<Field, string>)
    ensures Name in errors <==> Blank(d.name)
    ensures Points in errors <==> PointsRejected(d.points)
    ensures Category in errors <==> d.category == ""
    ensures Description !in errors && Status !in errors
    ensures Name in errors ==> errors[Name] == NameRequired
    ensures Points in errors ==> errors[Points] == PointsInvalid
    ensures Category in errors ==> errors[Category] == CategoryRequired
  {
    var e1 := if Blank(d.name) then map[Name := NameRequired] else map[];
    var e2 := if PointsRejected(d.points) then e1[Points := PointsInvalid] else e1;
    if d.category == "" then e2[Category := CategoryRequired] else e2
  }

  predicate Valid(d: Draft)
  {
    NoErrors(Validate(d))
  }

  /** The form is valid exactly when the name is not blank, the points are a
      positive number and a category is chosen. */
  lemma ValidIff(d: Draft)
    ensures Valid(d) <==> !Blank(d.name) && d.points.Some? && d.points.value > 0 && d.category != ""
  {
    NoErrorsIffNoKey(Validate(d));
  }

  /** `handleChange` for one of the text inputs and selects. */
  function ChangeText(ed: Editor<Draft, Field>, f: Field, v: string): (r: Editor<Draft, Field>)
    requires f != Points
    ensures r.draft.points == ed.draft.points && r.draft.image == ed.draft.image
    ensures f == Name ==> r.draft == ed.draft.(name := v)
    ensures f == Category ==> r.draft == ed.draft.(category := v)
    ensures f == Description ==> r.draft == ed.draft.(description := v)
    ensures f == Status ==> r.draft == ed.draft.(status := v)
    ensures r.errors.Keys == ed.errors.Keys
    ensures forall g :: g != f && g in ed.errors ==> r.errors[g] == ed.errors[g]
    ensures f in r.errors ==> r.errors[f] == ""
  {
    var d := ed.draft;
    var d' := match f
      case Name => d.(name := v)
      case Category => d.(category := v)
      case Description => d.(description := v)
      case Status => d.(status := v);
    Change(ed, f, d')
  }

  /** `handleChange` for the points box. */
  function ChangePoints(ed: Editor<Draft, Field>, v: Option<int>): (r: Editor<Draft, Field>)
    ensures r.draft == ed.draft.(points := v)
    ensures r.errors.Keys == ed.errors.Keys
    ensures forall g :: g != Points && g in ed.errors ==> r.errors[g] == ed.errors[g]
    ensures Points in r.errors ==> r.errors[Points] == ""
  {
    Change(ed, Points, ed.draft.(points := v))
  }

  /** The record `handleSubmit` hands to `onSave` once the form is valid: the
      fields with the points as a number, plus the edited product's id and
      creation time where those are truthy, else the clock and the current
      time. */
  function Record(d: Draft, product: Option<Product>, nowMs: nat, nowIso: string): (r: Product)
    requires Valid(d)
    ensures r.points > 0 && Some(r.points) == d.points
    ensures !Blank(r.name) && r.category != ""
    ensures r.name == d.name && r.category == d.category && r.description == d.description
    ensures r.status == d.status && r.image == d.image
    ensures product.None? ==> r.id == nowMs && r.createdAt == nowIso
    ensures product.Some? && product.value.id != 0 ==> r.id == product.value.id
    ensures product.Some? && product.value.createdAt != "" ==> r.createdAt == product.value.createdAt
  {
    ValidIff(d);
    var id := if product.Some? && product.value.id != 0 then product.value.id else nowMs;
    var created := if product.Some? && product.value.createdAt != "" then product.value.createdAt else nowIso;
    Product(id, d.name, d.points.value, d.category, d.description, d.status, d.image, created)
  }

  datatype Submitted = Submitted(editor: Editor<Draft, Field>, saved: Option<Product>)

  /** `handleSubmit`: the errors are replaced by a fresh validation, and
      `onSave` receives the record only when there are none. */
  function Submit(ed: Editor<Draft, Field>, product: Option<Product>, nowMs: nat, nowIso: string): (r: Submitted)
    ensures r.editor == Editor(ed.draft, Validate(ed.draft))
    ensures r.saved.Some? <==> Valid(ed.draft)
    ensures r.saved.Some? ==> r.saved.value.points > 0 && !Blank(r.saved.value.name)
    ensures r.saved.Some? ==> r.saved.value == Record(ed.draft, product, nowMs, nowIso)
  {
    Submitted(Editor(ed.draft, Validate(ed.draft)),
              if Valid(ed.draft) then Some(Record(ed.draft, product, nowMs, nowIso)) else None)
  }

  /** Opening a stored product for editing and saving it unchanged gives the
      product back, provided its fields were ones the form accepts. */
  lemma ResaveIsIdentity(q: Product, nowMs: nat, nowIso: string)
    requires q.id != 0 && q.createdAt != "" && q.status != ""
    requires !Blank(q.name) && q.points > 0 && q.category != ""
    ensures Valid(Load(Some(q)))
    ensures Record(Load(Some(q)), Some(q), nowMs, nowIso) == q
  {
    ValidIff(Load(Some(q)));
  }

  /** A product stored with 0 points opens with an empty box and cannot be
      saved until points are entered again. */
  lemma ZeroPointsBlockResave(q: Product)
    requires q.points == 0
    ensures Load(Some(q)).points.None?
    ensures !Valid(Load(Some(q)))
  {
    ValidIff(Load(Some(q)));
  }
}

=== FILE: roles.dfy ===
/** The closed set of user roles (`USER_ROLES`), their wire strings and their
    display names (`ROLE_NAMES`). */
module UserRoles {
  import opened Common

  datatype Role =
    | NgoAdmin
    | NgoPartner
    | AssociationAdmin
    | AssociationPartner
    | Store
    | Homeless
    | SystemAdmin

  /** The enumeration in declaration order, as `Object.values(USER_ROLES)`. */
  const AllRoles: seq<Role> :=
    [NgoAdmin, NgoPartner, AssociationAdmin, AssociationPartner, Store, Homeless, SystemAdmin]

  /** The string a role travels as, in request bodies, tokens and records. */
  function RoleValue(r: Role): string
  {
    match r
    case NgoAdmin => "ngo_admin"
    case NgoPartner => "ngo_partner"
    case AssociationAdmin => "association_admin"
    case AssociationPartner => "association_partner"
    case Store => "store"
    case Homeless => "homeless"
    case SystemAdmin => "system_admin"
  }

  /** `ROLE_NAMES[value]`. */
  function DisplayName(r: Role): string
  {
    match r
    case NgoAdmin => "NGO 管理員"
    case NgoPartner => "NGO 夥伴"
    case AssociationAdmin => "商圈協會管理員"
    case AssociationPartner => "商圈協會夥伴"
    case Store => "店家"
    case Homeless => "無家者"
    case SystemAdmin => "系統管理員"
  }

  /** The role whose wire string is `s`, if any. */
  function ParseRole(s: string): (r: Option<Role>)
    ensures r.Some? ==> RoleValue(r.value) == s
    ensures r.None? ==> forall x: Role :: RoleValue(x) != s
  {
    if s == "ngo_admin" then Some(NgoAdmin)
    else if s == "ngo_partner" then Some(NgoPartner)
    else if s == "association_admin" then Some(AssociationAdmin)
    else if s == "association_partner" then Some(AssociationPartner)
    else if s == "store" then Some(Store)
    else if s == "homeless" then Some(Homeless)
    else if s == "system_admin" then Some(SystemAdmin)
    else None
  }

  /** There are exactly seven roles, listed once each. */
  lemma AllRolesComplete()
    ensures |AllRoles| == 7
    ensures forall r: Role :: r in AllRoles
    ensures forall i, j :: 0 <= i < j < |AllRoles| ==> AllRoles[i] != AllRoles[j]
  {
    forall r: Role
      ensures r in AllRoles
    {
      match r
      case NgoAdmin => assert AllRoles[0] == r;
      case NgoPartner => assert AllRoles[1] == r;
      case AssociationAdmin => assert AllRoles[2] == r;
      case AssociationPartner => assert AllRoles[3] == r;
      case Store => assert AllRoles[4] == r;
      case Homeless => assert AllRoles[5] == r;
      case SystemAdmin => assert AllRoles[6] == r;
    }
  }

  /** Wire strings are pairwise distinct, so a role is recovered from its string. */
  lemma RoleValueInjective(a: Role, b: Role)
    ensures RoleValue(a) == RoleValue(b) <==> a == b
  {
  }

  /** Parsing a role's wire string gives back the role. */
  lemma ParseRoleValue(r: Role)
    ensures ParseRole(RoleValue(r)) == Some(r)
  {
  }

  /** Every role has a display name, and no two roles share one. */
  lemma DisplayNamesDistinct(a: Role, b: Role)
    ensures DisplayName(a) != ""
    ensures DisplayName(a) == DisplayName(b) <==> a == b
  {
  }
}

=== FILE: sessions.dfy ===
/** The decision ladders shared by the Express auth routes and the serverless
    auth handlers: which branch of login and of refresh a request takes. The
    two front ends differ only in how they write the outcome (status, body,
    cookie headers), which their own modules define. */
module Sessions {
  import opened Common
  import opened UserRoles
  import opened Tokens
  import opened Cookies
  import opened JwtConfig
  import opened Users
  import opened Http

  const IncompleteLoginMessage := "請提供完整的登入資訊"
  const BadCredentialsMessage := "帳號或密碼錯誤"
  const RoleMismatchMessage := "角色不符"
  const LoginOkMessage := "登入成功"
  const LogoutOkMessage := "登出成功"
  const NoRefreshMessage := "未提供 refresh token"
  const RefreshExpiredMessage := "Refresh token 已過期，請重新登入"
  const RefreshInvalidMessage := "無效的 refresh token"
  const RefreshedMessage := "Token 已刷新"
  const SubjectGoneMessage := "用戶不存在"

  /** The login body `{ username, password, role }`; `None` is an absent field. */
  datatype LoginRequest = LoginRequest(username: Option<string>, password: Option<string>, role: Option<string>)

  predicate Complete(req: LoginRequest)
  {
    Supplied(req.username) && Supplied(req.password) && Supplied(req.role)
  }

  datatype LoginVerdict =
    | MissingField
    | UnknownUser
    | RoleMismatch
    | WrongPassword
    | Accepted(user: User)

  /** The login ladder: fields, then the account, then its role, then its password. */
  function DecideLogin(req: LoginRequest, users: seq<User>, compare: PasswordCheck): (v: LoginVerdict)
    ensures v == MissingField <==> !Complete(req)
    ensures v == UnknownUser <==> Complete(req) && FindByUsername(users, req.username.value).None?
    ensures v == RoleMismatch <==>
              Complete(req) && FindByUsername(users, req.username.value).Some? &&
              RoleValue(FindByUsername(users, req.username.value).value.role) != req.role.value
    ensures v.Accepted? <==>
              Complete(req) && FindByUsername(users, req.username.value).Some? &&
              RoleValue(FindByUsername(users, req.username.value).value.role) == req.role.value &&
              compare(req.password.value, FindByUsername(users, req.username.value).value.password)
    ensures v.Accepted? ==> v.user in users && v.user.username == req.username.value
    ensures v.Accepted? ==> RoleValue(v.user.role) == req.role.value
    ensures v.Accepted? ==> FindByUsername(users, req.username.value) == Some(v.user)
  {
    if !Complete(req) then MissingField
    else
      match FindByUsername(users, req.username.value)
      case None => UnknownUser
      case Some(u) =>
        if RoleValue(u.role) != req.role.value then RoleMismatch
        else if !compare(req.password.value, u.password) then WrongPassword
        else Accepted(u)
  }

  /** The role is checked before the password: a role mismatch is reported as
      such whatever password was sent and however passwords are compared. */
  lemma RoleCheckedBeforePassword(req: LoginRequest, users: seq<User>, c1: PasswordCheck, c2: PasswordCheck, pw: string)
    requires pw != "" && req.password.Some?
    requires DecideLogin(req, users, c1) == RoleMismatch
    ensures DecideLogin(req.(password := Some(pw)), users, c2) == RoleMismatch
  {
  }

  /** Access tokens carry the subject and its role; refresh tokens only the subject. */
  function AccessClaims(u: User): Claims
  {
    Claims(u.id, Some(u.role))
  }

  function RefreshClaims(u: User): Claims
  {
    Claims(u.id, None)
  }

  datatype Issued = Issued(access: Token, refresh: Token)

  /** Signing both tokens at login; `None` when either lifetime string is not
      a timespan (the library throws). */
  function IssueTokens(u: User, cfg: Config, now: int): (r: Option<Issued>)
    ensures r.Some? <==> DurationSeconds(cfg.accessExpiry).Some? && DurationSeconds(cfg.refreshExpiry).Some?
    ensures r.Some? ==> r.value.access.claims == AccessClaims(u) && r.value.access.key == cfg.secret
    ensures r.Some? ==> r.value.refresh.claims == RefreshClaims(u) && r.value.refresh.key == cfg.refreshSecret
    ensures r.Some? ==> r.value.access.exp == now + DurationSeconds(cfg.accessExpiry).value
    ensures r.Some? ==> r.value.refresh.exp == now + DurationSeconds(cfg.refreshExpiry).value
  {
    match Sign(AccessClaims(u), cfg.secret, cfg.accessExpiry, now)
    case None => None
    case Some(a) =>
      match Sign(RefreshClaims(u), cfg.refreshSecret, cfg.refreshExpiry, now)
      case None => None
      case Some(r) => Some(Issued(a, r))
  }

  datatype RefreshVerdict =
    | NoRefreshToken
    | RefreshExpired
    | RefreshInvalid
    | SubjectGone
    | SigningFailed
    | Renewed(user: User, access: Token)

  /** The refresh ladder: the cookie, its verification with the refresh key,
      the subject's current account, and signing a new access token. */
  function DecideRefresh(jar: Jar, users: seq<User>, cfg: Config, now: int): (v: RefreshVerdict)
    ensures v == NoRefreshToken <==> Read(jar, RefreshCookie).None?
    ensures v == RefreshExpired <==>
              Read(jar, RefreshCookie).Some? && Verify(Read(jar, RefreshCookie).value, cfg.refreshSecret, now) == Expired
    ensures v == RefreshInvalid <==>
              Read(jar, RefreshCookie).Some? && Verify(Read(jar, RefreshCookie).value, cfg.refreshSecret, now) == Invalid
    ensures v.Renewed? ==>
              Read(jar, RefreshCookie).Some? &&
              Verify(Read(jar, RefreshCookie).value, cfg.refreshSecret, now).Valid? &&
              FindById(users, Verify(Read(jar, RefreshCookie).value, cfg.refreshSecret, now).claims.userId) == Some(v.user)
    ensures v.Renewed? ==> v.access.claims == AccessClaims(v.user) && v.access.key == cfg.secret
    ensures v.Renewed? ==> DurationSeconds(cfg.accessExpiry).Some? && v.access.iat == now &&
                           v.access.exp == now + DurationSeconds(cfg.accessExpiry).value
    ensures v == SubjectGone <==>
              Read(jar, RefreshCookie).Some? &&
              Verify(Read(jar, RefreshCookie).value, cfg.refreshSecret, now).Valid? &&
              FindById(users, Verify(Read(jar, RefreshCookie).value, cfg.refreshSecret, now).claims.userId).None?
    ensures v == SigningFailed <==>
              Read(jar, RefreshCookie).Some? &&
              Verify(Read(jar, RefreshCookie).value, cfg.refreshSecret, now).Valid? &&
              FindById(users, Verify(Read(jar, RefreshCookie).value, cfg.refreshSecret, now).claims.userId).Some? &&
              DurationSeconds(cfg.accessExpiry).None?
    ensures v.Renewed? <==>
              Read(jar, RefreshCookie).Some? &&
              Verify(Read(jar, RefreshCookie).value, cfg.refreshSecret, now).Valid? &&
              FindById(users, Verify(Read(jar, RefreshCookie).value, cfg.refreshSecret, now).claims.userId).Some? &&
              DurationSeconds(cfg.accessExpiry).Some?
  {
    match Read(jar, RefreshCookie)
    case None => NoRefreshToken
    case Some(t) =>
      match Verify(t, cfg.refreshSecret, now)
      case Expired => RefreshExpired
      case Invalid => RefreshInvalid
      case Valid(claims) =>
        match FindById(users, claims.userId)
        case None => SubjectGone
        case Some(u) =>
          match Sign(AccessClaims(u), cfg.secret, cfg.accessExpiry, now)
          case None => SigningFailed
          case Some(a) => Renewed(u, a)
  }

  /** The answer to a login that did not reach token signing. */
  function LoginRejection(v: LoginVerdict): (r: Response<UserInfo>)
    requires !v.Accepted?
    ensures !r.success && r.body.None? && r.setCookies == [] && !r.expired
    ensures r.status == (if v == MissingField then 400 else 401)
    ensures r.message == Some(RoleMismatchMessage) <==> v == RoleMismatch
  {
    match v
    case MissingField => Failure(400, IncompleteLoginMessage)
    case UnknownUser => Failure(401, BadCredentialsMessage)
    case RoleMismatch => Failure(401, RoleMismatchMessage)
    case WrongPassword => Failure(401, BadCredentialsMessage)
  }

  /** An unknown username and a wrong password are answered identically. */
  lemma UnknownUserLooksLikeWrongPassword()
    ensures LoginRejection(UnknownUser) == LoginRejection(WrongPassword)
    ensures LoginRejection(RoleMismatch) != LoginRejection(WrongPassword)
  {
  }
}

=== FILE: store_dashboard.dfy ===
/** The store console of src/pages/Store/Dashboard.jsx: the product list of
    `ProductManagement` (save from the product form, delete, status labels)
    and the income total of `IncomeReports`. Both live in component state
    over mock data; nothing here reaches the server. */
module StoreDashboard {
  import opened Common
  import opened ProductForm

  /** The component's state: the list, whether the form is open and which
      product it edits. */
  datatype Management = Management(products: seq<Product>, showForm: bool, editing: Option<Product>)

  /** `handleEdit`: open the form on a product. */
  function HandleEdit(m: Management, q: Product): Management
  {
    m.(showForm := true, editing := Some(q))
  }

  /** `handleSave`: while editing, every product with the edited id becomes
      the saved record; otherwise the record is appended. The form closes. */
  function HandleSave(m: Management, saved: Product): (r: Management)
    ensures !r.showForm && r.editing.None?
    ensures m.editing.None? ==> r.products == m.products + [saved]
    ensures m.editing.Some? ==> |r.products| == |m.products|
    ensures m.editing.Some? ==>
              forall i :: 0 <= i < |m.products| ==>
                r.products[i] == if m.products[i].id == m.editing.value.id then saved else m.products[i]
  {
    var products := match m.editing
      case None => m.products + [saved]
      case Some(q) => ReplaceWhere(m.products, (x: Product) => x.id == q.id, saved);
    Management(products, false, None)
  }

  /** Opening a product whose id is unique in the list and saving the form
      untouched leaves the list as it was. */
  lemma EditSaveRoundTrip(m: Management, k: int, nowMs: nat, nowIso: string)
    requires Distinct(m.products, (x: Product) => x.id)
    requires 0 <= k < |m.products|
    requires var q := m.products[k];
             q.id != 0 && q.createdAt != "" && q.status != "" && !Text.Blank(q.name) && q.points > 0 && q.category != ""
    ensures var q := m.products[k];
            && Valid(Load(Some(q)))
            && HandleSave(HandleEdit(m, q), Record(Load(Some(q)), Some(q), nowMs, nowIso)).products == m.products
  {
    var q := m.products[k];
    ResaveIsIdentity(q, nowMs, nowIso);
    var r := HandleSave(HandleEdit(m, q), q).products;
    assert forall i :: 0 <= i < |m.products| && i != k ==> m.products[i].id != q.id;
    assert forall i :: 0 <= i < |m.products| ==> r[i] == m.products[i];
  }

  /** `handleDelete`: once confirmed, the products with the id are removed
      and the rest keep their order; unconfirmed, nothing changes. */
  function HandleDelete(products: seq<Product>, id: int, confirmed: bool): (r: seq<Product>)
    ensures !confirmed ==> r == products
    ensures confirmed ==> forall x :: x in r <==> x in products && x.id != id
    ensures |r| <= |products|
  {
    if confirmed then Filter(products, (x: Product) => x.id != id) else products
  }

  /** Adding a product with a fresh id and then deleting that id gives the
      list back. */
  lemma AddThenDelete(m: Management, saved: Product)
    requires m.editing.None?
    requires forall i :: 0 <= i < |m.products| ==> m.products[i].id != saved.id
    ensures HandleDelete(HandleSave(m, saved).products, saved.id, true) == m.products
  {
    var keep := (x: Product) => x.id != saved.id;
    FilterConcat(m.products, [saved], keep);
    assert Filter([saved], keep) == [];
  }

  /** Deleting keeps order: deleting from a list with one more product at the
      end deletes from the list and keeps that product only if its id
      differs. */
  lemma DeleteAppend(products: seq<Product>, x: Product, id: int)
    ensures HandleDelete(products + [x], id, true) ==
            HandleDelete(products, id, true) + (if x.id != id then [x] else [])
  {
    FilterConcat(products, [x], (y: Product) => y.id != id);
  }

  /** `getStatusText`: '上架' for an active product, '下架' for anything else. */
  function StatusText(status: string): (r: string)
    ensures r == "上架" <==> status == "active"
    ensures r == "上架" || r == "下架"
  {
    if status == "active" then "上架" else "下架"
  }

  /** A sale in the income report. */
  datatype Sale = Sale(id: int, date: string, product: string, amount: int)

  /** The report's mock sales. */
  const MockSales := [
    Sale(1, "2025-10-02 12:30", "午餐套餐", 80),
    Sale(2, "2025-10-02 14:15", "洗衣券", 50),
    Sale(3, "2025-10-01 11:45", "理髮服務", 100)]

  /** The sum of the amounts, defined from the right. */
  function SumAmounts(sales: seq<Sale>): int
  {
    if |sales| == 0 then 0 else sales[0].amount + SumAmounts(sales[1..])
  }

  lemma {:induction false} SumAmountsAppend(sales: seq<Sale>, x: Sale)
    ensures SumAmounts(sales + [x]) == SumAmounts(sales) + x.amount
  {
    if |sales| > 0 {
      assert (sales + [x])[1..] == sales[1..] + [x];
      SumAmountsAppend(sales[1..], x);
    }
  }

  /** `reduce((sum, t) => sum + t.amount, 0)`: a left fold, which equals the
      sum of the amounts. */
  method TotalIncome(sales: seq<Sale>) returns (total: int)
    ensures total == SumAmounts(sales)
  {
    total := 0;
    var i := 0;
    while i < |sales|
      invariant 0 <= i <= |sales|
      invariant total == SumAmounts(sales[..i])
    {
      assert sales[..i + 1] == sales[..i] + [sales[i]];
      SumAmountsAppend(sales[..i], sales[i]);
      total := total + sales[i].amount;
      i := i + 1;
    }
    assert sales[..i] == sales;
  }

  /** The report shows 230 points for its three mock sales. */
  lemma MockTotal()
    ensures SumAmounts(MockSales) == 230
  {
  }
}

=== FILE: store_routes.dfy ===
/** The partner-store routes of server/routes/store.js: the public lookup by
    QR code and the list restricted to NGO staff. */
module StoreRoutes {
  import opened Common
  import opened UserRoles
  import opened Cookies
  import opened Users
  import opened Http
  import opened AuthGuard
  import BeneficiaryRoutes

  const NotFoundMessage := "找不到該店家資訊"

  datatype Payload = One(store: StoreRecord) | All(stores: seq<StoreRecord>)

  /** GET /:qrCode, with no guard: the first store carrying the code. */
  function Lookup(stores: seq<StoreRecord>, qrCode: string): (r: Response<Payload>)
    ensures r.success <==> exists i :: 0 <= i < |stores| && stores[i].qrCode == qrCode
    ensures r.success ==> r.status == 200 && r.body.Some? && r.body.value.One? &&
                          r.body.value.store in stores && r.body.value.store.qrCode == qrCode
    ensures r.success ==> exists i :: 0 <= i < |stores| && stores[i] == r.body.value.store &&
                                      forall j :: 0 <= j < i ==> stores[j].qrCode != qrCode
    ensures !r.success ==> r == Failure(404, NotFoundMessage)
  {
    match FindStoreByQrCode(stores, qrCode)
    case None => Failure(404, NotFoundMessage)
    case Some(s) => Success(None, Some(One(s)), [])
  }

  /** GET /, behind `authenticateToken` and `authorizeRoles('ngo_admin', 'ngo_partner')`. */
  function List(jar: Jar, users: seq<User>, key: string, now: int, stores: seq<StoreRecord>): (r: Response<Payload>)
    ensures r.success <==> exists u :: Resolves(jar, users, key, now, u) && u.role in BeneficiaryRoutes.StaffRoles
    ensures r.success ==> r.body == Some(All(stores))
    ensures !r.success ==> r == HaltResponse(RequireRoles(jar, users, key, now, BeneficiaryRoutes.StaffRoles))
  {
    match RequireRoles(jar, users, key, now, BeneficiaryRoutes.StaffRoles)
    case Proceed(_) => Success(None, Some(All(stores)), [])
    case g => HaltResponse(g)
  }

  /** A store account, signed in, is refused the list with 403; so is a
      beneficiary account. */
  lemma ListRefusesNonStaff(jar: Jar, users: seq<User>, key: string, now: int, stores: seq<StoreRecord>, u: User)
    requires Resolves(jar, users, key, now, u)
    requires u.role in {Store, Homeless}
    ensures List(jar, users, key, now, stores).status == 403
    ensures List(jar, users, key, now, stores).message == Some(ForbiddenMessage)
  {
  }

  /** With distinct QR codes, scanning a store's code answers that store. */
  lemma LookupFindsOwner(stores: seq<StoreRecord>, i: int)
    requires Distinct(stores, (s: StoreRecord) => s.qrCode)
    requires 0 <= i < |stores|
    ensures Lookup(stores, stores[i].qrCode) == Success(None, Some(One(stores[i])), [])
  {
    var r := Lookup(stores, stores[i].qrCode);
    var k :| 0 <= k < |stores| && stores[k] == r.body.value.store &&
             forall j :: 0 <= j < k ==> stores[j].qrCode != stores[i].qrCode;
    assert k == i;
  }

  /** Every seeded store can be found by its QR code. */
  lemma SeedStoresFound(i: int)
    requires 0 <= i < |SeedStores|
    ensures Lookup(SeedStores, SeedStores[i].qrCode) == Success(None, Some(One(SeedStores[i])), [])
  {
    SeedStoresDistinct();
    LookupFindsOwner(SeedStores, i);
  }
}

=== FILE: text.dfy ===
/** The JavaScript string primitives the validators and the search box rely on:
    `trim`, the `\s` class, ASCII `toLowerCase`, `includes`, and decimal
    rendering of non-negative integers (template literals such as `QR_${n}`). */
module Text {

  /** ECMAScript WhiteSpace and LineTerminator code points: exactly what
      `String.prototype.trim` strips and what the regular-expression class `\s` matches. */
  predicate IsWhitespace(c: char)
  {
    || c == '\t' || c == '\n' || c == '\U{000B}' || c == '\U{000C}' || c == '\r' || c == ' '
    || c == '\U{00A0}' || c == '\U{1680}' || ('\U{2000}' <= c <= '\U{200A}')
    || c == '\U{2028}' || c == '\U{2029}' || c == '\U{202F}' || c == '\U{205F}'
    || c == '\U{3000}' || c == '\U{FEFF}'
  }

  function TrimStart(s: string): (r: string)
    ensures |r| <= |s| && r == s[|s| - |r|..]
    ensures |r| > 0 ==> !IsWhitespace(r[0])
    ensures forall i :: 0 <= i < |s| - |r| ==> IsWhitespace(s[i])
  {
    if |s| > 0 && IsWhitespace(s[0]) then TrimStart(s[1..]) else s
  }

  function TrimEnd(s: string): (r: string)
    ensures |r| <= |s| && r == s[..|r|]
    ensures |r| > 0 ==> !IsWhitespace(r[|r| - 1])
    ensures forall i :: |r| <= i < |s| ==> IsWhitespace(s[i])
  {
    if |s| > 0 && IsWhitespace(s[|s| - 1]) then TrimEnd(s[..|s| - 1]) else s
  }

  /** `String.prototype.trim`. */
  function Trim(s: string): string
  {
    TrimEnd(TrimStart(s))
  }

  /** `!s.trim()`: the string is empty once trimmed. */
  predicate Blank(s: string)
  {
    Trim(s) == ""
  }

  /** A string is blank exactly when every character of it is white space. */
  lemma BlankIffAllWhitespace(s: string)
    ensures Blank(s) <==> forall i :: 0 <= i < |s| ==> IsWhitespace(s[i])
  {
    var t := TrimStart(s);
    if |t| > 0 {
      // the first kept character is not white space, and it is a character of s
      assert t[0] == s[|s| - |t|];
      assert !Blank(s) by {
        assert t[|TrimEnd(t)|..] != t;
      }
    }
  }

  predicate IsDigit(c: char)
  {
    '0' <= c <= '9'
  }

  predicate AllDigits(s: string)
  {
    forall i :: 0 <= i < |s| ==> IsDigit(s[i])
  }

  /** ASCII-only `toLowerCase` of one character. */
  function LowerChar(c: char): (r: char)
    ensures 'A' <= c <= 'Z' ==> r as int == c as int + 32
    ensures !('A' <= c <= 'Z') ==> r == c
    ensures !('A' <= r <= 'Z')
  {
    if 'A' <= c <= 'Z' then (c as int + 32) as char else c
  }

  /** ASCII-only `String.prototype.toLowerCase`. */
  function Lower(s: string): (r: string)
    ensures |r| == |s|
    ensures forall i :: 0 <= i < |s| ==> r[i] == LowerChar(s[i])
  {
    if |s| == 0 then "" else [LowerChar(s[0])] + Lower(s[1..])
  }

  /** Lowering twice is lowering once. */
  lemma LowerIdempotent(s: string)
    ensures Lower(Lower(s)) == Lower(s)
  {
    assert forall i :: 0 <= i < |s| ==> Lower(Lower(s))[i] == Lower(s)[i];
  }

  predicate IsPrefix(p: string, s: string)
  {
    |p| <= |s| && s[..|p|] == p
  }

  /** `hay.includes(needle)`, scanning left to right. */
  predicate Includes(hay: string, needle: string)
  {
    IsPrefix(needle, hay) || (|hay| > 0 && Includes(hay[1..], needle))
  }

  /** `needle` occurs in `hay` starting at offset `i`. */
  predicate OccursAt(hay: string, needle: string, i: int)
  {
    0 <= i <= |hay| - |needle| && hay[i..i + |needle|] == needle
  }

  /** The scan finds `needle` exactly when it occurs at some offset of `hay`. */
  lemma {:induction false} IncludesIffOccurs(hay: string, needle: string)
    ensures Includes(hay, needle) <==> exists i :: OccursAt(hay, needle, i)
  {
    if IsPrefix(needle, hay) {
      assert OccursAt(hay, needle, 0);
    } else if |hay| == 0 {
    } else {
      IncludesIffOccurs(hay[1..], needle);
      if Includes(hay[1..], needle) {
        var i :| OccursAt(hay[1..], needle, i);
        assert hay[i + 1..i + 1 + |needle|] == hay[1..][i..i + |needle|];
        assert OccursAt(hay, needle, i + 1);
      }
      if exists i :: OccursAt(hay, needle, i) {
        var i :| OccursAt(hay, needle, i);
        assert i != 0;
        assert hay[1..][i - 1..i - 1 + |needle|] == hay[i..i + |needle|];
        assert OccursAt(hay[1..], needle, i - 1);
      }
    }
  }

  /** Every string includes the empty string. */
  lemma IncludesEmpty(hay: string)
    ensures Includes(hay, "")
  {
    assert IsPrefix("", hay);
  }

  /** A character beyond the Basic Multilingual Plane, which UTF-16 writes as
      a surrogate pair. */
  predicate Astral(c: char)
  {
    c as int > 0xFFFF
  }

  /** `s.length`: the number of UTF-16 code units, two for an astral
      character and one for any other. */
  function Utf16Length(s: string): (n: nat)
    ensures |s| <= n <= 2 * |s|
  {
    if |s| == 0 then 0 else (if Astral(s[0]) then 2 else 1) + Utf16Length(s[1..])
  }

  /** Code units add up over concatenation. */
  lemma {:induction false} Utf16LengthConcat(a: string, b: string)
    ensures Utf16Length(a + b) == Utf16Length(a) + Utf16Length(b)
  {
    if |a| == 0 {
      assert a + b == b;
    } else {
      assert (a + b)[0] == a[0] && (a + b)[1..] == a[1..] + b;
      Utf16LengthConcat(a[1..], b);
    }
  }

  /** `length` counts characters exactly when none is astral, and counts one
      more unit for every astral one. */
  lemma {:induction false} Utf16LengthCountsAstral(s: string)
    ensures Utf16Length(s) == |s| <==> forall i :: 0 <= i < |s| ==> !Astral(s[i])
  {
    if |s| > 0 {
      Utf16LengthCountsAstral(s[1..]);
      if Astral(s[0]) {
        assert Utf16Length(s) > |s|;
      } else {
        assert forall i :: 1 <= i < |s| ==> s[i] == s[1..][i - 1];
      }
    }
  }

  function DigitChar(d: nat): (c: char)
    requires d < 10
    ensures IsDigit(c)
  {
    ('0' as int + d) as char
  }

  function DigitValue(c: char): (d: nat)
    requires IsDigit(c)
    ensures d < 10
  {
    c as int - '0' as int
  }

  /** Decimal rendering of a non-negative integer, as `String(n)`. */
  function NatToString(n: nat): (r: string)
    ensures |r| >= 1 && AllDigits(r)
    decreases n
  {
    if n < 10 then [DigitChar(n)] else NatToString(n / 10) + [DigitChar(n % 10)]
  }

  /** The value of a non-empty run of decimal digits. */
  function ParseDigits(s: string): nat
    requires AllDigits(s)
  {
    if |s| == 0 then 0 else 10 * ParseDigits(s[..|s| - 1]) + DigitValue(s[|s| - 1])
  }

  /** Decimal rendering is undone by parsing. */
  lemma {:induction false} ParseNatToString(n: nat)
    ensures ParseDigits(NatToString(n)) == n
    decreases n
  {
    var r := NatToString(n);
    if n >= 10 {
      ParseNatToString(n / 10);
      assert r[..|r| - 1] == NatToString(n / 10);
    }
  }

  /** Decimal rendering is injective, so distinct numbers give distinct texts. */
  lemma NatToStringInjective(m: nat, n: nat)
    requires NatToString(m) == NatToString(n)
    ensures m == n
  {
    ParseNatToString(m);
    ParseNatToString(n);
  }
}

=== FILE: tokens.dfy ===
/** Signed tokens, abstractly. A token is its claims, the key it was signed
    with and its issue/expiry times (seconds); the cryptography is not
    modelled, only its observable contract: verification with the signing key
    yields the claims until `exp`, verification with any other key fails.
    Expiry follows section 4.1.4 of RFC 7519: the token is rejected once the
    current time is at or after `exp`. */
module Tokens {
  import opened Common
  import opened UserRoles
  import opened Text

  /** `{ userId, role }` for access tokens, `{ userId }` for refresh tokens. */
  datatype Claims = Claims(userId: int, role: Option<Role>)

  datatype Token = Token(claims: Claims, key: string, iat: int, exp: int)

  /** A cookie value as received: a token some party signed, or any other
      text (including the empty string a cleared cookie leaves behind). */
  datatype Presented = Signed(token: Token) | Garbled(text: string)

  /** What `jwt.verify` does: return the claims, or throw
      `TokenExpiredError`, or throw any other error. */
  datatype Verdict = Valid(claims: Claims) | Expired | Invalid

  /** Units of the timespan strings `expiresIn` accepts (`'15m'`, `'7d'`). */
  datatype Unit = Seconds | Minutes | Hours | Days

  function UnitSeconds(u: Unit): nat
  {
    match u
    case Seconds => 1
    case Minutes => 60
    case Hours => 60 * 60
    case Days => 24 * 60 * 60
  }

  function UnitChar(u: Unit): char
  {
    match u
    case Seconds => 's'
    case Minutes => 'm'
    case Hours => 'h'
    case Days => 'd'
  }

  function UnitOf(c: char): (r: Option<Unit>)
    ensures r.Some? ==> UnitChar(r.value) == c
    ensures r.None? ==> forall u: Unit :: UnitChar(u) != c
  {
    if c == 's' then Some(Seconds)
    else if c == 'm' then Some(Minutes)
    else if c == 'h' then Some(Hours)
    else if c == 'd' then Some(Days)
    else None
  }

  /** The number of seconds a timespan string stands for: one or more decimal
      digits followed by a unit letter; anything else is rejected. */
  function DurationSeconds(s: string): (r: Option<nat>)
    ensures |s| < 2 ==> r.None?
    ensures r.Some? ==> UnitOf(s[|s| - 1]).Some? && AllDigits(s[..|s| - 1])
  {
    if |s| >= 2 && AllDigits(s[..|s| - 1]) && UnitOf(s[|s| - 1]).Some? then
      Some(ParseDigits(s[..|s| - 1]) * UnitSeconds(UnitOf(s[|s| - 1]).value))
    else None
  }

  /** Writing a count and a unit and reading it back gives the count in seconds. */
  lemma DurationRoundTrip(n: nat, u: Unit)
    ensures DurationSeconds(NatToString(n) + [UnitChar(u)]) == Some(n * UnitSeconds(u))
  {
    var s := NatToString(n) + [UnitChar(u)];
    assert s[..|s| - 1] == NatToString(n);
    ParseNatToString(n);
  }

  /** The access lifetime `'15m'` is the 900 seconds of the access cookie, and
      the refresh lifetime `'7d'` the 604800 seconds of the refresh cookie. */
  lemma DefaultLifetimes()
    ensures DurationSeconds("15m") == Some(900)
    ensures DurationSeconds("7d") == Some(604800)
  {
    DurationRoundTrip(15, Minutes);
    DurationRoundTrip(7, Days);
    assert NatToString(15) + [UnitChar(Minutes)] == "15m";
    assert NatToString(7) + [UnitChar(Days)] == "7d";
  }

  /** `jwt.sign(claims, key, { expiresIn })` at time `now`; `None` where the
      library throws because `expiresIn` is not a timespan. */
  function Sign(claims: Claims, key: string, expiresIn: string, now: int): (r: Option<Token>)
    ensures r.Some? <==> DurationSeconds(expiresIn).Some?
    ensures r.Some? ==> r.value.claims == claims && r.value.key == key
    ensures r.Some? ==> r.value.iat == now <= r.value.exp
  {
    match DurationSeconds(expiresIn)
    case Some(d) => Some(Token(claims, key, now, now + d))
    case None => None
  }

  /** `jwt.verify(value, key)` at time `now`: the signature is checked first,
      then the expiry. */
  function Verify(p: Presented, key: string, now: int): (v: Verdict)
    ensures v.Valid? ==> p.Signed? && p.token.key == key && v.claims == p.token.claims
    ensures p.Garbled? ==> v == Invalid
    ensures p.Signed? && p.token.key != key ==> v == Invalid
  {
    match p
    case Garbled(_) => Invalid
    case Signed(t) =>
      if t.key != key then Invalid
      else if now >= t.exp then Expired
      else Valid(t.claims)
  }

  /** A freshly signed token verifies with its key, to its claims, for the
      whole lifetime and is expired from then on. */
  lemma SignThenVerify(claims: Claims, key: string, expiresIn: string, now: int, later: int)
    requires DurationSeconds(expiresIn).Some?
    ensures Verify(Signed(Sign(claims, key, expiresIn, now).value), key, later) ==
            if later < now + DurationSeconds(expiresIn).value then Valid(claims) else Expired
  {
  }

  /** A token signed with one key never verifies with a different one. */
  lemma KeysIsolate(t: Token, key: string, now: int)
    requires t.key != key
    ensures Verify(Signed(t), key, now) == Invalid
  {
  }

  /** Expiry is monotone: once a token has expired it stays expired. */
  lemma ExpiryIsFinal(p: Presented, key: string, now: int, later: int)
    requires Verify(p, key, now) == Expired && now <= later
    ensures Verify(p, key, later) == Expired
  {
  }
}

=== FILE: users.dfy ===
/** The in-memory repository of server/models/users.js: the account directory
    (`UserModel`), the beneficiaries (`HomelessModel`) and the partner stores
    (`StoreModel`), with their seed data. Password hashes are opaque digests;
    comparing a password with a digest is a parameter of the callers. */
module Users {
  import opened Common
  import opened UserRoles

  /** A profile value: the seed records hold strings and numbers. */
  datatype Field = Text(s: string) | Number(n: int)

  /** `bcrypt.hashSync(plain, rounds)`, kept abstract. */
  datatype Digest = Bcrypt(plain: string, rounds: nat)

  /** `bcrypt.compareSync(plain, digest)`. */
  type PasswordCheck = (string, Digest) -> bool

  /** An account: the fields every account has, plus the role-specific ones
      (name, email, storeId, qrCode, address, phone, idNumber, balance, ...) in `profile`. */
  datatype User = User(id: int, username: string, password: Digest, role: Role, profile: map<string, Field>)

  /** An account without its password, as sent to clients. */
  datatype UserInfo = UserInfo(id: int, username: string, role: Role, profile: map<string, Field>)

  datatype Beneficiary = Beneficiary(id: string, name: string, idNumber: string, qrCode: string, balance: int, phone: string)

  datatype Offer = Offer(id: int, name: string, points: int, description: string)

  datatype StoreRecord = StoreRecord(id: string, name: string, qrCode: string, address: string, phone: string, products: seq<Offer>)

  const SeedUsers: seq<User> := [
    User(1, "admin", Bcrypt("admin123", 10), NgoAdmin,
         map["name" := Text("NGO 管理員"), "email" := Text("admin@ngo.org")]),
    User(2, "store1", Bcrypt("store123", 10), Store,
         map["name" := Text("ABC餐廳"), "storeId" := Text("STORE_001"), "qrCode" := Text("STORE_QR_001"),
             "address" := Text("台北市大安區和平東路123號"), "phone" := Text("02-2345-6789")]),
    User(3, "homeless1", Bcrypt("homeless123", 10), Homeless,
         map["name" := Text("張小明"), "idNumber" := Text("A123456789"), "qrCode" := Text("QR_001"),
             "balance" := Number(150)]),
    User(4, "ngo_partner", Bcrypt("partner123", 10), NgoPartner,
         map["name" := Text("NGO 夥伴"), "email" := Text("partner@ngo.org")]),
    User(5, "association", Bcrypt("assoc123", 10), AssociationAdmin,
         map["name" := Text("協會管理員"), "associationName" := Text("台北市街友關懷協會")])
  ]

  const SeedBeneficiaries: seq<Beneficiary> := [
    Beneficiary("A123456789", "張小明", "A123456789", "QR_001", 150, "0912-345-678"),
    Beneficiary("B234567890", "李大華", "B234567890", "QR_002", 200, "0923-456-789")
  ]

  const SeedStores: seq<StoreRecord> := [
    StoreRecord("STORE_001", "ABC餐廳", "STORE_QR_001", "台北市大安區和平東路123號", "02-2345-6789", [
      Offer(1, "午餐套餐", 80, "主菜+湯+飲料"),
      Offer(2, "早餐組合", 50, "三明治+咖啡"),
      Offer(3, "晚餐套餐", 100, "雙主菜+湯+飲料+甜點"),
      Offer(4, "單點飲料", 20, "任選一杯飲料")]),
    StoreRecord("STORE_002", "XYZ洗衣店", "STORE_QR_002", "台北市中正區羅斯福路456號", "02-3456-7890", [
      Offer(1, "洗衣券", 50, "一般衣物洗滌"),
      Offer(2, "燙衣服務", 30, "單件燙衣")])
  ]

  /** The repository invariants the handlers rely on. */
  predicate WellFormedBeneficiaries(bs: seq<Beneficiary>)
  {
    && (forall i :: 0 <= i < |bs| ==> bs[i].balance >= 0)
    && Distinct(bs, (b: Beneficiary) => b.id)
  }

  /** The seeded accounts have unique usernames. */
  lemma SeedUsernamesDistinct()
    ensures Distinct(SeedUsers, (u: User) => u.username)
  {
    var names := seq(|SeedUsers|, k requires 0 <= k < |SeedUsers| => SeedUsers[k].username);
    assert names == ["admin", "store1", "homeless1", "ngo_partner", "association"];
  }

  /** The seeded accounts have unique ids, 1 to 5. */
  lemma SeedIdsDistinct()
    ensures Distinct(SeedUsers, (u: User) => u.id)
  {
    assert forall k :: 0 <= k < |SeedUsers| ==> SeedUsers[k].id == k + 1;
  }

  /** The seeded beneficiaries satisfy the repository invariants and have
      unique QR codes. */
  lemma SeedBeneficiariesWellFormed()
    ensures WellFormedBeneficiaries(SeedBeneficiaries)
    ensures Distinct(SeedBeneficiaries, (b: Beneficiary) => b.qrCode)
  {
  }

  /** The seeded stores have unique QR codes. */
  lemma SeedStoresDistinct()
    ensures Distinct(SeedStores, (s: StoreRecord) => s.qrCode)
  {
  }

  /** `UserModel.findByUsername`: the first account with that username. */
  function FindByUsername(users: seq<User>, username: string): (r: Option<User>)
    ensures r.None? <==> forall i :: 0 <= i < |users| ==> users[i].username != username
    ensures r.Some? ==> r.value.username == username
    ensures r.Some? ==> exists i :: 0 <= i < |users| && users[i] == r.value &&
                                    forall j :: 0 <= j < i ==> users[j].username != username
  {
    Find(users, (u: User) => u.username == username)
  }

  /** `UserModel.findById`: the first account with that id. */
  function FindById(users: seq<User>, id: int): (r: Option<User>)
    ensures r.None? <==> forall i :: 0 <= i < |users| ==> users[i].id != id
    ensures r.Some? ==> r.value.id == id
    ensures r.Some? ==> exists i :: 0 <= i < |users| && users[i] == r.value &&
                                    forall j :: 0 <= j < i ==> users[j].id != id
  {
    Find(users, (u: User) => u.id == id)
  }

  /** With unique usernames the lookup returns the one account carrying the name. */
  lemma FindByUsernameUnique(users: seq<User>, i: int)
    requires Distinct(users, (u: User) => u.username)
    requires 0 <= i < |users|
    ensures FindByUsername(users, users[i].username) == Some(users[i])
  {
    var r := FindByUsername(users, users[i].username);
    var k :| 0 <= k < |users| && users[k] == r.value &&
             forall j :: 0 <= j < k ==> users[j].username != users[i].username;
  }

  /** With unique ids the lookup returns the one account carrying the id. */
  lemma FindByIdUnique(users: seq<User>, i: int)
    requires Distinct(users, (u: User) => u.id)
    requires 0 <= i < |users|
    ensures FindById(users, users[i].id) == Some(users[i])
  {
    var r := FindById(users, users[i].id);
    var k :| 0 <= k < |users| && users[k] == r.value &&
             forall j :: 0 <= j < k ==> users[j].id != users[i].id;
  }

  /** `UserModel.getUserInfo`: the account with its password left out. */
  function GetUserInfo(u: User): UserInfo
  {
    UserInfo(u.id, u.username, u.role, u.profile)
  }

  /** Putting the password back into the info gives the account again. */
  function WithPassword(info: UserInfo, password: Digest): User
  {
    User(info.id, info.username, password, info.role, info.profile)
  }

  /** The info keeps every field but the password: adding the password back
      restores the account, and two accounts differing only in their
      password have the same info. */
  lemma UserInfoDropsOnlyPassword(u: User, v: User)
    ensures WithPassword(GetUserInfo(u), u.password) == u
    ensures GetUserInfo(u) == GetUserInfo(v) <==> u == v.(password := u.password)
  {
  }

  /** `HomelessModel.findByQrCode`: the first beneficiary with that QR code. */
  function FindBeneficiaryByQrCode(bs: seq<Beneficiary>, qrCode: string): (r: Option<Beneficiary>)
    ensures r.None? <==> forall i :: 0 <= i < |bs| ==> bs[i].qrCode != qrCode
    ensures r.Some? ==> r.value.qrCode == qrCode
    ensures r.Some? ==> exists i :: 0 <= i < |bs| && bs[i] == r.value &&
                                    forall j :: 0 <= j < i ==> bs[j].qrCode != qrCode
  {
    Find(bs, (b: Beneficiary) => b.qrCode == qrCode)
  }

  /** The lookup returns the record at the first index carrying the code. */
  lemma FindBeneficiaryAt(bs: seq<Beneficiary>, qrCode: string, i: int)
    requires 0 <= i < |bs| && bs[i].qrCode == qrCode
    requires forall j :: 0 <= j < i ==> bs[j].qrCode != qrCode
    ensures FindBeneficiaryByQrCode(bs, qrCode) == Some(bs[i])
  {
    var r := FindBeneficiaryByQrCode(bs, qrCode);
    var k :| 0 <= k < |bs| && bs[k] == r.value && forall j :: 0 <= j < k ==> bs[j].qrCode != qrCode;
    assert k == i;
  }

  /** `StoreModel.findByQrCode`: the first store with that QR code. */
  function FindStoreByQrCode(stores: seq<StoreRecord>, qrCode: string): (r: Option<StoreRecord>)
    ensures r.None? <==> forall i :: 0 <= i < |stores| ==> stores[i].qrCode != qrCode
    ensures r.Some? ==> r.value.qrCode == qrCode
    ensures r.Some? ==> exists i :: 0 <= i < |stores| && stores[i] == r.value &&
                                    forall j :: 0 <= j < i ==> stores[j].qrCode != qrCode
  {
    Find(stores, (s: StoreRecord) => s.qrCode == qrCode)
  }

  datatype BalanceUpdate = BalanceUpdate(found: bool, beneficiaries: seq<Beneficiary>)

  /** `HomelessModel.updateBalance(id, newBalance)`: the first beneficiary with
      that id gets the new balance and the call answers true; with no such
      beneficiary it answers false. */
  function UpdateBalance(bs: seq<Beneficiary>, id: string, newBalance: int): (r: BalanceUpdate)
    ensures |r.beneficiaries| == |bs|
    ensures r.found <==> exists i :: 0 <= i < |bs| && bs[i].id == id
    ensures !r.found ==> r.beneficiaries == bs
    ensures r.found ==> exists i :: 0 <= i < |bs| && bs[i].id == id &&
                                    (forall j :: 0 <= j < i ==> bs[j].id != id) &&
                                    r.beneficiaries == bs[i := bs[i].(balance := newBalance)]
  {
    match FirstIndex(bs, (b: Beneficiary) => b.id == id)
    case None => BalanceUpdate(false, bs)
    case Some(i) => BalanceUpdate(true, bs[i := bs[i].(balance := newBalance)])
  }

  /** With unique ids the update touches exactly the beneficiary carrying the id. */
  lemma UpdateBalanceUnique(bs: seq<Beneficiary>, k: int, newBalance: int)
    requires Distinct(bs, (b: Beneficiary) => b.id)
    requires 0 <= k < |bs|
    ensures UpdateBalance(bs, bs[k].id, newBalance) == BalanceUpdate(true, bs[k := bs[k].(balance := newBalance)])
  {
    var r := UpdateBalance(bs, bs[k].id, newBalance);
    var i :| 0 <= i < |bs| && bs[i].id == bs[k].id && (forall j :: 0 <= j < i ==> bs[j].id != bs[k].id) &&
             r.beneficiaries == bs[i := bs[i].(balance := newBalance)];
  }

  /** With unique ids, updating the balance of the beneficiary found by QR code
      updates that very record. */
  lemma UpdateFoundBeneficiary(bs: seq<Beneficiary>, qrCode: string, newBalance: int)
    requires Distinct(bs, (b: Beneficiary) => b.id)
    requires FindBeneficiaryByQrCode(bs, qrCode).Some?
    ensures var b := FindBeneficiaryByQrCode(bs, qrCode).value;
            exists i :: 0 <= i < |bs| && bs[i] == b &&
              UpdateBalance(bs, b.id, newBalance).beneficiaries == bs[i := b.(balance := newBalance)]
  {
    var b := FindBeneficiaryByQrCode(bs, qrCode).value;
    var k :| 0 <= k < |bs| && bs[k] == b && forall j :: 0 <= j < k ==> bs[j].qrCode != qrCode;
    UpdateBalanceUnique(bs, k, newBalance);
  }

  /** Updating a balance keeps ids, and with a non-negative balance keeps every
      repository invariant. */
  lemma UpdateBalancePreservesWellFormed(bs: seq<Beneficiary>, id: string, newBalance: int)
    requires WellFormedBeneficiaries(bs) && newBalance >= 0
    ensures WellFormedBeneficiaries(UpdateBalance(bs, id, newBalance).beneficiaries)
  {
    var r := UpdateBalance(bs, id, newBalance);
    if r.found {
      var i :| 0 <= i < |bs| && bs[i].id == id && (forall j :: 0 <= j < i ==> bs[j].id != id) &&
               r.beneficiaries == bs[i := bs[i].(balance := newBalance)];
      assert forall k :: 0 <= k < |bs| ==> r.beneficiaries[k].id == bs[k].id;
    }
  }
}
